=== FILE: README.md ===
# Structure moves and splits of a port-Hamiltonian core

This project models, in Dafny, the part of pyphs that reorders the variables
of a port-Hamiltonian core:

- `myrange`, `splitlist` and `decimate` from `misc/tools.py`;
- the moves of `pyphs/core/structure/moves.py`. These are `movesquarematrixcolnrow`,
  `movematrixcols`, `moveCoreMcolnrow`, `move_stor`, `move_diss`, `move_port`
  and `move_connector`. Each applies one `myrange` permutation to a matrix, or
  to a group of parallel variable lists together with the matching block of
  rows and columns of the structure matrix `M`;
- the two splits of `pyphs/core/structure/splits.py`, `linear_nonlinear` and
  `monovar_multivar`. Each walks the states, then the dissipation variables.
  A variable that passes a test on a criterion matrix stays in place. Any
  other variable is moved to the end of its block, and the criterion moves
  with it. The number that passed is recorded in the core's dimensions.

The modules follow the source:

- `Tools` (`misc/tools.py`): `myrange` as the Python slices build it
  (`MyRange`), and a position-by-position reference definition (`Origin`,
  `MoveIndices`).
- `Matrices`: sympy-style matrices with an explicit shape.
- `Cores`: the part of a core the moves touch.
- `Moves` (`moves.py`).
- `Partition`: bookkeeping for the keep-or-move-to-end loops. The loops
  compute a stable partition (`StableOrder`), and `Filter` is an independent
  reference definition of it.
- `Splits` (`splits.py`).

The splits are modelled as methods whose loops follow the source's loops one
iteration at a time. Their contracts state the following:

- The variable lists end up as the stable partition of the originals: the
  variables that pass, in their original order, then the others.
- `M` (and, for the dissipation variables, `Zl`) is read through the same
  reordering.
- The recorded counts are the numbers of variables that pass.

Symbolic computation is a parameter:

- the criterion matrices (`hess`, `jacz`);
- sympy's `free_symbols` (`fs`);
- the symbolic zero (`zero`).

## Model

| member | source | states |
|---|---|---|
| Tools.MyRange | misc/tools.py:17-32 | `myrange(N, indi, indf)` has N entries, and entry k is the original index `Origin(N, indi, indf, k)` |
| Tools.MyRangeIsMoveIndices | misc/tools.py:21-32 | the slice-and-concatenate construction equals the position-by-position reference `MoveIndices` for every N, indi, indf |
| Tools.MyRangeIsPerm | misc/tools.py:17-32 | the result is a permutation of `range(N)`, and `Destination` gives the position of each original index (the inverse) |
| Tools.MyRangePlacesIndi | misc/tools.py:17-20 | index indi lands at position indf; for a move past the end it lands at the last position |
| Tools.MyRangeIdentity | misc/tools.py:21-32 | with indi == indf (neither branch taken) the result is `range(N)` for any N |
| Tools.MyRangeForward | misc/tools.py:22-26 | forward move: entries before indi and after indf stay, indi+1..indf shift left by one, indi lands at indf |
| Tools.MyRangeBackward | misc/tools.py:27-31 | backward move: entries before indf and after indi stay, indf..indi-1 shift right by one, indi lands at indf |
| Tools.OriginOutsideWindow | misc/tools.py:17-32 | positions outside the window between indi and its landing place hold their own index |
| Tools.MyRangePastEnd | misc/tools.py:22-26 | `myrange(N, indi, N)` equals `myrange(N, indi, N-1)`, because the slices clamp |
| Tools.OriginInBlock | pyphs/core/structure/moves.py:66-72 | a move between two indices of the block starting at offset o acts inside the block as the block's own `myrange` does, and fixes everything outside the block |
| Tools.MoveToEnd | misc/tools.py:22-26 | reordering a list by `myrange(len, i, len-1)` removes element i and appends it, keeping the others in order |
| Tools.SplitList | misc/tools.py:64-78 | the chunks concatenate back to the input (the partner `Flatten`); every chunk has 1..len_out elements and all but the last have exactly len_out |
| Tools.Decimate | misc/tools.py:86-113 | nd defaults to 10, as in the source; a non-positive nd is rejected (None); otherwise the output is it[0], it[nd], it[2nd], ..., exactly the indices below len(it) that are multiples of nd |
| Moves.MoveSquareMatrixColNRow | pyphs/core/structure/moves.py:42-44 | the result is square of the same size, and entry (r, c) is the input's entry at (Origin(r), Origin(c)) |
| Moves.MoveSquareMovesRowAndColumn | pyphs/core/structure/moves.py:25-28 | the docstring's promise: row indf of the result is row indi of M, column indf is column indi, and the diagonal entry follows |
| Moves.MoveMatrixCols | pyphs/core/structure/moves.py:47-50 | same shape; rows stay, and column c is input column Origin(c) |
| Moves.MoveMatrixColsMovesColumn | pyphs/core/structure/moves.py:47-50 | column indf of the result is column indi of the input; columns outside the moved window stay |
| Moves.MoveUnlessZero | pyphs/core/structure/moves.py:54-55 | a zero matrix is left alone, and otherwise it is permuted; when myrange can be built, the result is the permuted matrix either way |
| Moves.MoveCoreMColNRow | pyphs/core/structure/moves.py:53-55 | only M changes: a zero M is kept, and otherwise rows and columns of M are permuted by myrange over the size of M |
| Moves.MoveList | pyphs/core/structure/moves.py:59-60 | `[lis[el] for el in myrange(...)]` reads position k from original index Origin(k) |
| Moves.MoveStor | pyphs/core/structure/moves.py:58-63 | only x, dxH and M change; x and a computed dxH are permuted by myrange(dims.x()), a missing dxH stays missing, and M is permuted at indi, indf |
| Moves.MoveDiss | pyphs/core/structure/moves.py:66-72 | only w, z, M and Zl change; w and z are permuted together, M at offset dims.x(), and Zl unless it is zero |
| Moves.MoveDissLists | pyphs/core/structure/moves.py:66-70 | the core after the first three steps of `move_diss`: w, z and M moved, Zl untouched; completing it with the guarded move of Zl gives `MoveDiss` |
| Moves.MoveDissChecked | pyphs/core/structure/moves.py:66-72 | `move_diss` with its error path: it raises `IndexError` exactly when the move of w and z cannot be built, or when a non-zero Zl has `indi >= Zl.rows` and `indi != indf`. In the first case the core is left unchanged. In the second, w, z and M have already been moved (`MoveDissLists`) and Zl is unchanged. Otherwise the result is `MoveDiss` |
| Moves.ShortZlMisaligns | pyphs/core/structure/moves.py:71-72 | a concrete core with a non-zero 1 by 1 Zl and two dissipation variables: moving w[0] to the end swaps w but leaves Zl as it was, so Zl no longer belongs to w[0] |
| Moves.ShortZlRaises | misc/tools.py:22-25 | a concrete core with a non-zero 1 by 1 Zl and three dissipation variables: moving w[1] to the end is a valid move of w, yet `move_diss` raises `IndexError` after w has already become [1, 3, 2]; moving the last variable onto itself does not raise |
| Moves.MovePort | pyphs/core/structure/moves.py:75-80 | only u, y and M change; u and y are permuted together, and M at offset dims.x()+dims.w() |
| Moves.MoveConnector | pyphs/core/structure/moves.py:83-88 | only cu, cy and M change; cu and cy are permuted together, and M at offset dims.x()+dims.w()+dims.y() |
| Moves.MoveStorInBlock | pyphs/core/structure/moves.py:58-63 | on a well-formed core, the result is well-formed; the state block of M is relabelled by the permutation applied to x, and entries outside the moved window stay |
| Moves.MoveDissInBlock | pyphs/core/structure/moves.py:66-72 | well-formedness is kept; the dissipation block of M, and a Zl covering w, are relabelled by the permutation applied to w and z; M outside the window stays |
| Moves.MovePortInBlock | pyphs/core/structure/moves.py:75-80 | well-formedness is kept; the port block of M is relabelled by the permutation applied to u and y; M outside the window stays |
| Moves.MoveConnectorInBlock | pyphs/core/structure/moves.py:83-88 | well-formedness is kept; the connector block of M is relabelled by the permutation applied to cu and cy; M outside the window stays |
| Partition.PickCountsTrue | pyphs/core/structure/splits.py:95-97 | the kept indices are as many as the variables marked as passing (the count the loop accumulates) |
| Partition.MidwayKeep | pyphs/core/structure/splits.py:95-97 | keeping a passing variable advances the loop's order invariant and increments the counter |
| Partition.MidwayMove | pyphs/core/structure/splits.py:98-101 | moving a failing variable to the last position advances the loop's order invariant and leaves the counter alone |
| Partition.MidwayIsPerm | pyphs/core/structure/splits.py:86-101 | every intermediate order of the loop is a permutation of the variables |
| Partition.StableOrderIsPerm | pyphs/core/structure/splits.py:86-101 | the final order is a permutation of the variables |
| Partition.StableOrderFilters | pyphs/core/structure/splits.py:86-101 | reading a list through the final order gives the reference stable partition: passing elements in order, then the others in order |
| Partition.FilterLength | pyphs/core/structure/splits.py:95-97 | the elements that pass are as many as the marks `true` (the count the loop accumulates), and the others are the rest |
| Splits.Marks | pyphs/core/structure/splits.py:91-95 | the per-variable test, one mark per criterion column, each mark being `Passes`. For `linear_nonlinear` (`FreeOf`), column k passes when no entry has a free symbol in `arg` (splits.py:91-95 and :109-113, with `fs` standing for sympy's `free_symbols`). For `monovar_multivar` (`Separate`), row k passes when every entry off the diagonal is zero (splits.py:26-30 and :43-47); `el is sympify(0)` is modelled as equality with `zero` |
| Splits.MoveCriterion | pyphs/core/structure/splits.py:77-83 | `movefunc` on the criterion: rows and columns move for the default Hessian/Jacobian, only columns for a user criterion |
| Splits.CriterionStep | pyphs/core/structure/splits.py:101 | moving the criterion to the last position keeps it equal to the original criterion read through the updated order |
| Splits.PassesAligned | pyphs/core/structure/splits.py:91-95 | a variable passes in the moved criterion exactly when it passed in the original one (both directions) |
| Splits.ToEndList | pyphs/core/structure/splits.py:33-35 | moving entry i to `dims.x()` (as written) or to `dims.x()-1` both take it out of the list and append it, keeping the other entries in order |
| Splits.StorToEnd | pyphs/core/structure/splits.py:100 | `move_stor(core, i, target)` takes state i out of x and appends it; x, dxH and, for the last position, the state block of M stay aligned with the updated order; w, z, u, y, cu, cy, Zl and dims are untouched |
| Splits.CriterionToEnd | pyphs/core/structure/splits.py:101 | the moved criterion stays aligned with the updated order |
| Splits.StorageStep | pyphs/core/structure/splits.py:89-101 | one loop iteration keeps every invariant: order, counter, core alignment and criterion alignment |
| Splits.StorageLoop | pyphs/core/structure/splits.py:86-101 | after the storage loop, the counter equals the number of passing states, and the core and the criterion are aligned with the stable partition |
| Splits.DissToEnd | pyphs/core/structure/splits.py:118 | `move_diss(core, i, target)` takes w[i] and z[i] out and appends them; w, z and, for the last position, the dissipation block of M and a Zl covering w stay aligned with the updated order |
| Splits.DissStep | pyphs/core/structure/splits.py:107-119 | one iteration of the dissipative loop (the test on the moved criterion, then keep and count, or move to the end) keeps every invariant: order, counter, core alignment and criterion alignment; a passing variable leaves the core and the criterion as they were and adds one to the count, a failing one leaves the count alone |
| Splits.DissLoop | pyphs/core/structure/splits.py:104-119 | after the dissipative loop, the counter equals the number of passing dissipation variables, and the core is aligned with the stable partition |
| Splits.SplitLists | pyphs/core/structure/splits.py:86-119 | the two loops leave x, dxH, w and z as reference stable partitions, and u, y, cu, cy and dims unchanged |
| Splits.LinearNonlinear | pyphs/core/structure/splits.py:60-127 | `linear_nonlinear`: states and dissipation variables are stably partitioned (linear first); the first xl states (wl dissipation variables) are exactly those that pass and the rest are those that do not; M follows both reorderings, Zl follows w |
| Splits.MonovarMultivar | pyphs/core/structure/splits.py:16-56 | `monovar_multivar` with moves to the last position: stable partitions by zero off-diagonal rows; the first xs states (ws dissipation variables) are exactly the separate ones and the remaining xns (wns) the others; M and Zl follow |
| Splits.MonovarMultivarAsWritten | pyphs/core/structure/splits.py:16-56 | the same split with moves past the end, as written: the lists, the counts and the prefix property come out as in `MonovarMultivar` |
| Splits.PastEndAgreesWhenAlone | pyphs/core/structure/splits.py:35 | when the states are the only block of M, the as-written move past the end equals the move to the last position |
| Splits.PastEndMisalignsM | pyphs/core/structure/splits.py:35 | a concrete core on which the as-written storage move reorders x correctly but puts a dissipation entry of M where the moved state's entry belongs |
| Splits.PastEndMisalignsMDiss | pyphs/core/structure/splits.py:52 | a concrete core on which the as-written dissipative move reorders w, z correctly but puts a port entry of M where the moved variable's entry belongs |

## Left out

- Negative (Python end-relative) indices in `myrange` are not modelled: indices are `nat`.
- The `IndexError` that `myrange` raises at `lis[indi]` when `indi >= N` and `indi != indf` is modelled for `move_diss` only (`MoveDissChecked`). Everywhere else `myrange` requires `Movable`, that is `indi == indf || indi < N`. Under the splits' preconditions (`ZlMovable`, and one criterion column per variable), the split loops never call it with anything else. Without them they can: a short `Zl` (see the `ZlMovable` line), or a criterion with more columns than there are states, where `move_stor(core, 1, 0)` on a single state calls `myrange(1, 1, 0)` and raises.
- `splitlist` mutates its argument (it reverses `lis` and pops it empty). The model reads the list and leaves it alone. With `len_out < 1` on a non-empty list the source never terminates, hence the precondition.
- `norm`, `progressbar` and `matrix2list` (misc/tools.py) are floating point, console output and numpy/sympy glue.
- The symbolic parts are parameters:
  - sympy's `hessian`, `jacobian` and `free_symbols` are the criterion matrices `hess` and `jacz` and the function `fs`;
  - `is_zero` is "every entry equals `zero`";
  - `el is sympy.sympify(0)` is `== zero`.
- `linear_nonlinear` ends by rebuilding `Q` and `Zl` with `setexpr` (symbolic Hessian and Jacobian of the linear parts). That is not modelled. The `Zl` stated is the one carried along by `move_diss`.
- `linear_nonlinear`'s `criterion=None` branch is the choice `kind == SquareMove` with the default criterion matrices passed in. A given criterion is `kind == ColumnMove`.
- `monovar_multivar` recomputes the Hessian of `H` with respect to the reordered `x` at every iteration. It is modelled as the Hessian carried along by square moves, which is the same matrix.
- `core.Jacz` is not part of this model. It is taken to be the Jacobian of `z` with respect to `w` in the current order, likewise carried along by square moves.
- `monovar_multivar` imports `move_stor` and `move_diss` from `utils.structure`, which is not part of this model. The moves of `moves.py` are used in their place.
- Shapes the source assumes but does not check are preconditions:
  - the criterion has as many columns as there are variables;
  - the monovariate criteria are square.
- The splits require `ZlMovable`: `Zl` is zero or covers every dissipation variable. This excludes a case the source does reach. `linear_nonlinear` itself ends by setting `Zl` to the `nwl` by `nwl` Jacobian (splits.py:127). A later split that calls `move_diss` on that core then does one of three things. It raises `IndexError` when `i >= nwl` and `i` is not the last dissipation variable (`indi != indf`, `ShortZlRaises`). It leaves `Zl` alone when `i` is the last one. When `i < nwl`, it moves `Zl`'s row to position `nwl-1` while `w[i]` goes to the end, so that `Zl` no longer matches `w` (`ShortZlMisaligns`). The model states nothing about a split of such a core.
- MoveSquareMatrixColNRow: only sympy matrices are modelled, where `M[p, p]` extracts the rows and the columns listed in `p`. On a numpy array, such as the docstring's own `np.eye(3)` example, the same expression is pointwise fancy indexing: it returns the 1-D array `[M[p0, p0], M[p1, p1], ...]`, the permuted diagonal. The docstring's promise does not hold there.
- MonovarMultivarAsWritten: states nothing about `M` or `Zl`, because the as-written moves past the end do not keep them aligned with the variables (see Findings).
- Tools.MyRange: its element-wise contract is stated through `Origin`. Callers use the position-by-position `MoveIndices`, and `MyRangeIsMoveIndices` proves the two equal.

## Findings

| source | as written | input that shows it | evidently intended | confidence | as-written member | corrected member |
|---|---|---|---|---|---|---|
| pyphs/core/structure/splits.py:35 | `move_stor(core, i, core.dims.x())` moves one past the last state. For the lists, `myrange` clamps this to the last position. `moveCoreMcolnrow` builds `myrange` over all of `M`, so the state's row and column land at index `dims.x()`. That index is in the next non-empty block of `M` (dissipation, port or connector), whenever there is one. This assumes that the `move_stor` and `move_diss` of `moves.py` stand in for the ones splits.py:21 imports from `utils.structure`, which is not part of this model. | x = [1, 2], w = [3], M = [[11,12,13],[21,22,23],[31,32,33]], i = 0: x becomes [2, 1], but M[1][1] becomes 33 instead of 11 | move to `core.dims.x()-1`, as `linear_nonlinear` does at line 100 | high (not executed) | Splits.PastEndMisalignsM | Splits.MonovarMultivar |
| pyphs/core/structure/splits.py:52 | `move_diss(core, i, core.dims.w())` moves one past the last dissipation variable. The row and column of `M` land at `dims.x() + dims.w()`. That index is in the port or connector block, whenever one is non-empty. This assumes that the `move_stor` and `move_diss` of `moves.py` stand in for the ones splits.py:21 imports from `utils.structure`, which is not part of this model. | w = [1, 2], z = [3, 4], y = [6], M = [[11,12,13],[21,22,23],[31,32,33]], i = 0: w becomes [2, 1], but M[1][1] becomes 33 instead of 11 | move to `core.dims.w()-1`, as `linear_nonlinear` does at line 118 | high (not executed) | Splits.PastEndMisalignsMDiss | Splits.MonovarMultivar |

=== FILE: cores.dfy ===
/**
 The part of a port-Hamiltonian core that the structure moves touch: the
 parallel variable lists, the structure matrix `M` and the matrix `Zl` of
 linear dissipations, and the dimension attributes the splits record.
 */
module Cores {

  import opened Options
  import opened Matrices

  /** Counts written by the splits: `_xl`, `_wl` (linear_nonlinear) and `xs`, `xns`, `ws`, `wns` (monovar_multivar). */
  datatype Dims = Dims(xl: nat, wl: nat, xs: nat, xns: nat, ws: nat, wns: nat)

  /**
   `x` states with cached gradient `dxH` (`None` until computed), `w`/`z`
   dissipation variables and functions, `u`/`y` ports, `cu`/`cy` connectors.
   `M` is the structure matrix over the blocks x, w, y, cy in that order.
   */
  datatype Core<E> = Core(
    x: seq<E>, dxH: Option<seq<E>>,
    w: seq<E>, z: seq<E>,
    u: seq<E>, y: seq<E>,
    cu: seq<E>, cy: seq<E>,
    M: Matrix<E>, Zl: Matrix<E>,
    dims: Dims)
  {
    /** `dims.x()`, `dims.w()`, `dims.y()`, `dims.cy()`: the lengths of `x`, `w`, `y`, `cy`. */
    function DimX(): nat { |x| }
    function DimW(): nat { |w| }
    function DimY(): nat { |y| }
    function DimCy(): nat { |cy| }

    /** Size of the structure matrix: one row and column per variable of each block. */
    function DimM(): nat { |x| + |w| + |y| + |cy| }

    /** A well-formed core: parallel lists have equal lengths and `M` covers every block. */
    predicate Valid() {
      && (dxH.Some? ==> |dxH.value| == |x|)
      && |z| == |w| && |u| == |y| && |cu| == |cy|
      && M.IsSquare() && M.rows == DimM()
      && Zl.IsSquare()
    }
  }
}

=== FILE: matrices.dfy ===
/**
 Dense matrices with an explicit shape, as sympy stores them: a matrix may
 have columns but no rows, so the shape is kept apart from the entries.
 */
module Matrices {

  datatype Matrix<E> = Matrix(rows: nat, cols: nat, entries: seq<seq<E>>) {

    /** The entries form a `rows` by `cols` grid. */
    predicate Valid() {
      |entries| == rows && forall r :: 0 <= r < rows ==> |entries[r]| == cols
    }

    predicate IsSquare() {
      Valid() && rows == cols
    }
  }

  /** sympy's `M.is_zero` for a matrix whose entries are decided: every entry is `zero`. */
  predicate IsZero<E(==)>(m: Matrix<E>, zero: E)
    requires m.Valid()
  {
    forall r, c :: 0 <= r < m.rows && 0 <= c < m.cols ==> m.entries[r][c] == zero
  }
}

=== FILE: moves.dfy ===
/**
 The moves of `pyphs/core/structure/moves.py`: one `myrange` permutation
 applied to a matrix, to the parallel variable lists of a core, and to the
 matching block of rows and columns of the structure matrix `M`.
 */
module Moves {

  import opened Options
  import opened Permutations
  import opened Tools
  import opened Matrices
  import opened Cores

  /**
   `movesquarematrixcolnrow`: `M[p, p]` with `p = myrange(n, indi, indf)`,
   i.e. sympy's extraction of the rows and the columns listed in `p`.
   */
  function MoveSquareMatrixColNRow<E>(m: Matrix<E>, indi: nat, indf: nat): (a: Matrix<E>)
    requires m.IsSquare() && Movable(m.rows, indi, indf)
    ensures a.IsSquare() && a.rows == m.rows
    ensures forall r, c :: 0 <= r < a.rows && 0 <= c < a.rows ==>
      a.entries[r][c] == m.entries[Origin(m.rows, indi, indf, r)][Origin(m.rows, indi, indf, c)]
  {
    var p := MoveIndices(m.rows, indi, indf);
    Matrix(m.rows, m.cols,
      seq(m.rows, r requires 0 <= r < m.rows =>
        seq(m.rows, c requires 0 <= c < m.rows => m.entries[p[r]][p[c]])))
  }

  /**
   The docstring's promise: row `indf` of the result is row `indi` of `M`
   and column `indf` is column `indi`, both read through the same reordering.
   */
  lemma MoveSquareMovesRowAndColumn<E>(m: Matrix<E>, indi: nat, indf: nat)
    requires m.IsSquare() && indi < m.rows && indf < m.rows
    ensures forall c :: 0 <= c < m.rows ==>
      MoveSquareMatrixColNRow(m, indi, indf).entries[indf][c] == m.entries[indi][Origin(m.rows, indi, indf, c)]
    ensures forall r :: 0 <= r < m.rows ==>
      MoveSquareMatrixColNRow(m, indi, indf).entries[r][indf] == m.entries[Origin(m.rows, indi, indf, r)][indi]
    ensures MoveSquareMatrixColNRow(m, indi, indf).entries[indf][indf] == m.entries[indi][indi]
  {
  }

  /** `movematrixcols`: `matrix[:, p]` with `p = myrange(cols, indi, indf)`; rows stay put. */
  function MoveMatrixCols<E>(m: Matrix<E>, indi: nat, indf: nat): (a: Matrix<E>)
    requires m.Valid() && Movable(m.cols, indi, indf)
    ensures a.Valid() && a.rows == m.rows && a.cols == m.cols
    ensures forall r, c :: 0 <= r < a.rows && 0 <= c < a.cols ==>
      a.entries[r][c] == m.entries[r][Origin(m.cols, indi, indf, c)]
  {
    var p := MoveIndices(m.cols, indi, indf);
    Matrix(m.rows, m.cols,
      seq(m.rows, r requires 0 <= r < m.rows =>
        seq(m.cols, c requires 0 <= c < m.cols => m.entries[r][p[c]])))
  }

  /** Column `indf` of the result is column `indi` of the input; columns outside the moved window stay. */
  lemma MoveMatrixColsMovesColumn<E>(m: Matrix<E>, indi: nat, indf: nat)
    requires m.Valid() && indi < m.cols && indf < m.cols
    ensures forall r :: 0 <= r < m.rows ==> MoveMatrixCols(m, indi, indf).entries[r][indf] == m.entries[r][indi]
    ensures forall r, c :: 0 <= r < m.rows && 0 <= c < m.cols && (c < Min(indi, indf) || Max(indi, indf) < c) ==>
      MoveMatrixCols(m, indi, indf).entries[r][c] == m.entries[r][c]
  {
  }

  /** A square matrix can be moved as sympy would: it is zero (and left alone) or `myrange` can be built. */
  predicate MatrixMovable<E(==)>(m: Matrix<E>, indi: nat, indf: nat, zero: E) {
    m.IsSquare() && (IsZero(m, zero) || Movable(m.rows, indi, indf))
  }

  /**
   The guarded move `moveCoreMcolnrow` and `move_diss` apply: a matrix that
   sympy reports as zero is kept as it is, any other is moved. Skipping a
   zero matrix is only a shortcut: the result is the moved matrix either way.
   */
  function MoveUnlessZero<E(==)>(m: Matrix<E>, indi: nat, indf: nat, zero: E): (a: Matrix<E>)
    requires MatrixMovable(m, indi, indf, zero)
    ensures a.IsSquare() && a.rows == m.rows
    ensures IsZero(m, zero) ==> a == m
    ensures Movable(m.rows, indi, indf) ==> forall r, c :: 0 <= r < a.rows && 0 <= c < a.rows ==>
      a.entries[r][c] == m.entries[Origin(m.rows, indi, indf, r)][Origin(m.rows, indi, indf, c)]
  {
    if IsZero(m, zero) then
      m
    else
      MoveSquareMatrixColNRow(m, indi, indf)
  }

  /** `moveCoreMcolnrow`: move row and column `indi` of the structure matrix to `indf`; nothing else in the core changes. */
  function MoveCoreMColNRow<E(==)>(c: Core<E>, indi: nat, indf: nat, zero: E): (r: Core<E>)
    requires MatrixMovable(c.M, indi, indf, zero)
    ensures r.(M := c.M) == c
    ensures IsZero(c.M, zero) ==> r == c
    ensures r.M.IsSquare() && r.M.rows == c.M.rows
    ensures Movable(c.M.rows, indi, indf) ==> forall a, b :: 0 <= a < r.M.rows && 0 <= b < r.M.rows ==>
      r.M.entries[a][b] == c.M.entries[Origin(c.M.rows, indi, indf, a)][Origin(c.M.rows, indi, indf, b)]
  {
    c.(M := MoveUnlessZero(c.M, indi, indf, zero))
  }

  /** `[s[el] for el in myrange(n, indi, indf)]`, defined when `s` has at least `n` elements. */
  function MoveList<T>(s: seq<T>, n: nat, indi: nat, indf: nat): (r: seq<T>)
    requires Movable(n, indi, indf) && n <= |s|
    ensures |r| == n
    ensures forall k :: 0 <= k < n ==> r[k] == s[Origin(n, indi, indf, k)]
  {
    Reorder(s, MoveIndices(n, indi, indf))
  }

  /**
   `move_stor`: reorder `x` and, when computed, `_dxH` by
   `myrange(dims.x(), indi, indf)`, then move row and column `indi` of `M`.
   */
  function MoveStor<E(==)>(c: Core<E>, indi: nat, indf: nat, zero: E): (r: Core<E>)
    requires Movable(|c.x|, indi, indf)
    requires c.dxH.Some? ==> |c.x| <= |c.dxH.value|
    requires MatrixMovable(c.M, indi, indf, zero)
    ensures r.(x := c.x, dxH := c.dxH, M := c.M) == c
    ensures |r.x| == |c.x| && forall k :: 0 <= k < |c.x| ==> r.x[k] == c.x[Origin(|c.x|, indi, indf, k)]
    ensures r.dxH.Some? <==> c.dxH.Some?
    ensures r.dxH.Some? ==> (|r.dxH.value| == |c.x| &&
      forall k :: 0 <= k < |c.x| ==> r.dxH.value[k] == c.dxH.value[Origin(|c.x|, indi, indf, k)])
    ensures r.M.IsSquare() && r.M.rows == c.M.rows
    ensures Movable(c.M.rows, indi, indf) ==> forall a, b :: 0 <= a < r.M.rows && 0 <= b < r.M.rows ==>
      r.M.entries[a][b] == c.M.entries[Origin(c.M.rows, indi, indf, a)][Origin(c.M.rows, indi, indf, b)]
  {
    var n := c.DimX();
    var dxH := if c.dxH.Some? then Some(MoveList(c.dxH.value, n, indi, indf)) else None;
    MoveCoreMColNRow(c.(x := MoveList(c.x, n, indi, indf), dxH := dxH), indi, indf, zero)
  }

  /**
   `move_diss`: reorder `w` and `z` together by `myrange(dims.w(), indi, indf)`,
   move the matching row and column of `M` (offset `dims.x()`), and move `Zl`
   unless it is zero.
   */
  function MoveDiss<E(==)>(c: Core<E>, indi: nat, indf: nat, zero: E): (r: Core<E>)
    requires Movable(|c.w|, indi, indf) && |c.w| <= |c.z|
    requires MatrixMovable(c.M, |c.x| + indi, |c.x| + indf, zero)
    requires MatrixMovable(c.Zl, indi, indf, zero)
    ensures r.(w := c.w, z := c.z, M := c.M, Zl := c.Zl) == c
    ensures |r.w| == |r.z| == |c.w|
    ensures forall k :: 0 <= k < |c.w| ==>
      r.w[k] == c.w[Origin(|c.w|, indi, indf, k)] && r.z[k] == c.z[Origin(|c.w|, indi, indf, k)]
    ensures r.M.IsSquare() && r.M.rows == c.M.rows
    ensures Movable(c.M.rows, |c.x| + indi, |c.x| + indf) ==> forall a, b :: 0 <= a < r.M.rows && 0 <= b < r.M.rows ==>
      r.M.entries[a][b] == c.M.entries[Origin(c.M.rows, |c.x| + indi, |c.x| + indf, a)][Origin(c.M.rows, |c.x| + indi, |c.x| + indf, b)]
    ensures IsZero(c.Zl, zero) ==> r.Zl == c.Zl
    ensures r.Zl.IsSquare() && r.Zl.rows == c.Zl.rows
    ensures Movable(c.Zl.rows, indi, indf) ==> forall a, b :: 0 <= a < r.Zl.rows && 0 <= b < r.Zl.rows ==>
      r.Zl.entries[a][b] == c.Zl.entries[Origin(c.Zl.rows, indi, indf, a)][Origin(c.Zl.rows, indi, indf, b)]
  {
    var n := c.DimW();
    var c1 := c.(w := MoveList(c.w, n, indi, indf), z := MoveList(c.z, n, indi, indf));
    var c2 := MoveCoreMColNRow(c1, |c.x| + indi, |c.x| + indf, zero);
    var zl := MoveUnlessZero(c.Zl, indi, indf, zero);
    c.(w := c1.w, z := c1.z, M := c2.M, Zl := zl)
  }

  /**
   The first three steps of `move_diss`: `w`, `z` and `M` moved, `Zl` not yet
   touched. This is the state `move_diss` leaves behind when its last step,
   the move of `Zl`, raises.
   */
  function MoveDissLists<E(==)>(c: Core<E>, indi: nat, indf: nat, zero: E): (r: Core<E>)
    requires Movable(|c.w|, indi, indf) && |c.w| <= |c.z|
    requires MatrixMovable(c.M, |c.x| + indi, |c.x| + indf, zero)
    ensures r.Zl == c.Zl
    ensures MatrixMovable(c.Zl, indi, indf, zero) ==>
      MoveDiss(c, indi, indf, zero) == r.(Zl := MoveUnlessZero(c.Zl, indi, indf, zero))
  {
    c.(w := MoveList(c.w, |c.w|, indi, indf), z := MoveList(c.z, |c.w|, indi, indf),
       M := MoveUnlessZero(c.M, |c.x| + indi, |c.x| + indf, zero))
  }

  /** What a call that mutates the core in place leaves behind, and whether it raised. */
  datatype Outcome<T> = Outcome(state: T, raised: bool)

  /**
   `move_diss` together with its error path: `raised` where one of its
   `myrange` calls reads `lis[indi]` past the end and raises `IndexError`.
   On a well-formed core that is the move of `w` and `z`, which raises before
   anything changes, or the move of a non-zero `Zl` that has no row `indi`
   while `indi != indf`, which raises after `w`, `z` and `M` have been moved.
   The move of `M` never raises once the move of `w` can be built.
   */
  function MoveDissChecked<E(==)>(c: Core<E>, indi: nat, indf: nat, zero: E): (r: Outcome<Core<E>>)
    requires c.Valid()
    ensures r.raised <==> !Movable(|c.w|, indi, indf) || (!IsZero(c.Zl, zero) && !Movable(c.Zl.rows, indi, indf))
    ensures !r.raised ==> r.state == MoveDiss(c, indi, indf, zero)
    ensures r.raised ==> r.state.Zl == c.Zl
    ensures !Movable(|c.w|, indi, indf) ==> r.state == c
    ensures Movable(|c.w|, indi, indf) && r.raised ==> r.state == MoveDissLists(c, indi, indf, zero)
  {
    if !Movable(|c.w|, indi, indf) then
      Outcome(c, true)
    else if !MatrixMovable(c.Zl, indi, indf, zero) then
      Outcome(MoveDissLists(c, indi, indf, zero), true)
    else
      Outcome(MoveDiss(c, indi, indf, zero), false)
  }

  /** Two dissipation variables with a non-zero `Zl` covering only the first, as `linear_nonlinear` leaves it when `nwl == 1`. */
  function ShortZlExample(): (c: Core<int>)
    ensures c.Valid() && |c.w| == 2 && c.Zl.rows == 1
  {
    Core([], None, [1, 2], [3, 4], [], [], [], [],
         Matrix(2, 2, [[11, 12], [21, 22]]), Matrix(1, 1, [[7]]),
         Dims(0, 1, 0, 0, 0, 0))
  }

  /**
   Moving dissipation variable 0 to the last position swaps `w` and `z`, but
   `myrange(1, 0, 1)` leaves the 1 by 1 `Zl` as it was: its entry, which
   belonged to `w[0] == 1`, now stands next to `w[0] == 2`.
   */
  lemma ShortZlMisaligns()
    ensures !MoveDissChecked(ShortZlExample(), 0, 1, 0).raised
    ensures MoveDissChecked(ShortZlExample(), 0, 1, 0).state.w == [2, 1]
    ensures MoveDissChecked(ShortZlExample(), 0, 1, 0).state.Zl == ShortZlExample().Zl
  {
    var c := ShortZlExample();
    assert Origin(2, 0, 1, 0) == 1 && Origin(2, 0, 1, 1) == 0;
    var r := MoveDiss(c, 0, 1, 0);
    assert Origin(1, 0, 1, 0) == 0;
    assert r.Zl.entries[0][0] == 7;
    assert r.Zl.entries[0] == [7];
  }

  /** Three dissipation variables with a non-zero 1 by 1 `Zl`. */
  function ShortZlRaisesExample(): (c: Core<int>)
    ensures c.Valid() && |c.w| == 3 && c.Zl.rows == 1
  {
    Core([], None, [1, 2, 3], [4, 5, 6], [], [], [], [],
         Matrix(3, 3, [[11, 12, 13], [21, 22, 23], [31, 32, 33]]), Matrix(1, 1, [[7]]),
         Dims(0, 1, 0, 0, 0, 0))
  }

  /**
   Moving dissipation variable 1 to the last position is a valid move of `w`
   and `z`, but `myrange(1, 1, 2)` for `Zl` reads `lis[1]` of a one-element
   list: the source raises `IndexError`, after `w` has already been reordered.
   Moving the last variable onto itself does not raise: `myrange(1, 2, 2)`
   never reads `lis[2]`.
   */
  lemma ShortZlRaises()
    ensures Movable(|ShortZlRaisesExample().w|, 1, 2)
    ensures MoveDissChecked(ShortZlRaisesExample(), 1, 2, 0).raised
    ensures MoveDissChecked(ShortZlRaisesExample(), 1, 2, 0).state.w == [1, 3, 2]
    ensures MoveDissChecked(ShortZlRaisesExample(), 1, 2, 0).state.Zl == ShortZlRaisesExample().Zl
    ensures !MoveDissChecked(ShortZlRaisesExample(), 2, 2, 0).raised
  {
    assert ShortZlRaisesExample().Zl.entries[0][0] == 7;
    assert Origin(3, 1, 2, 0) == 0 && Origin(3, 1, 2, 1) == 2 && Origin(3, 1, 2, 2) == 1;
  }

  /**
   `move_port`: reorder `u` and `y` together by `myrange(dims.y(), indi, indf)`
   and move the matching row and column of `M` (offset `dims.x() + dims.w()`).
   */
  function MovePort<E(==)>(c: Core<E>, indi: nat, indf: nat, zero: E): (r: Core<E>)
    requires Movable(|c.y|, indi, indf) && |c.y| <= |c.u|
    requires MatrixMovable(c.M, |c.x| + |c.w| + indi, |c.x| + |c.w| + indf, zero)
    ensures r.(u := c.u, y := c.y, M := c.M) == c
    ensures |r.u| == |r.y| == |c.y|
    ensures forall k :: 0 <= k < |c.y| ==>
      r.u[k] == c.u[Origin(|c.y|, indi, indf, k)] && r.y[k] == c.y[Origin(|c.y|, indi, indf, k)]
    ensures r.M.IsSquare() && r.M.rows == c.M.rows
    ensures Movable(c.M.rows, |c.x| + |c.w| + indi, |c.x| + |c.w| + indf) ==> forall a, b :: 0 <= a < r.M.rows && 0 <= b < r.M.rows ==>
      r.M.entries[a][b] == c.M.entries[Origin(c.M.rows, |c.x| + |c.w| + indi, |c.x| + |c.w| + indf, a)][Origin(c.M.rows, |c.x| + |c.w| + indi, |c.x| + |c.w| + indf, b)]
  {
    var n := c.DimY();
    var c1 := c.(u := MoveList(c.u, n, indi, indf), y := MoveList(c.y, n, indi, indf));
    var c2 := MoveCoreMColNRow(c1, |c.x| + |c.w| + indi, |c.x| + |c.w| + indf, zero);
    c.(u := c1.u, y := c1.y, M := c2.M)
  }

  /**
   `move_connector`: reorder `cu` and `cy` together by `myrange(dims.cy(), indi, indf)`
   and move the matching row and column of `M` (offset `dims.x() + dims.w() + dims.y()`).
   */
  function MoveConnector<E(==)>(c: Core<E>, indi: nat, indf: nat, zero: E): (r: Core<E>)
    requires Movable(|c.cy|, indi, indf) && |c.cy| <= |c.cu|
    requires MatrixMovable(c.M, |c.x| + |c.w| + |c.y| + indi, |c.x| + |c.w| + |c.y| + indf, zero)
    ensures r.(cu := c.cu, cy := c.cy, M := c.M) == c
    ensures |r.cu| == |r.cy| == |c.cy|
    ensures forall k :: 0 <= k < |c.cy| ==>
      r.cu[k] == c.cu[Origin(|c.cy|, indi, indf, k)] && r.cy[k] == c.cy[Origin(|c.cy|, indi, indf, k)]
    ensures r.M.IsSquare() && r.M.rows == c.M.rows
    ensures Movable(c.M.rows, |c.x| + |c.w| + |c.y| + indi, |c.x| + |c.w| + |c.y| + indf) ==> forall a, b :: 0 <= a < r.M.rows && 0 <= b < r.M.rows ==>
      r.M.entries[a][b] == c.M.entries[Origin(c.M.rows, |c.x| + |c.w| + |c.y| + indi, |c.x| + |c.w| + |c.y| + indf, a)][Origin(c.M.rows, |c.x| + |c.w| + |c.y| + indi, |c.x| + |c.w| + |c.y| + indf, b)]
  {
    var n := c.DimCy();
    var c1 := c.(cu := MoveList(c.cu, n, indi, indf), cy := MoveList(c.cy, n, indi, indf));
    var c2 := MoveCoreMColNRow(c1, |c.x| + |c.w| + |c.y| + indi, |c.x| + |c.w| + |c.y| + indf, zero);
    c.(cu := c1.cu, cy := c1.cy, M := c2.M)
  }

  // ---------------------------------------------------------------------------
  // The moves on a well-formed core: lists and the matching block of M move together
  // ---------------------------------------------------------------------------

  lemma BlockOrigin(n: nat, o: nat, m: nat, indi: nat, indf: nat)
    requires o + m <= n && indi < m && indf < m
    ensures forall k :: 0 <= k < n ==> Origin(n, o + indi, o + indf, k) == Lift(o, MoveIndices(m, indi, indf), k)
  {
    forall k | 0 <= k < n
      ensures Origin(n, o + indi, o + indf, k) == Lift(o, MoveIndices(m, indi, indf), k)
    {
      OriginInBlock(n, o, m, indi, indf, k);
    }
  }

  /**
   `after` is `before` with the rows and columns of the block `[o, o + |p|)`
   put in the order `p`, the others left where they are.
   */
  ghost predicate ReadThrough<E>(before: Matrix<E>, after: Matrix<E>, o: nat, p: seq<nat>) {
    && before.IsSquare() && after.IsSquare() && after.rows == before.rows
    && o + |p| <= before.rows && InBounds(p, |p|)
    && forall a, b {:trigger Lift(o, p, a), Lift(o, p, b)} :: 0 <= a < before.rows && 0 <= b < before.rows ==>
         after.entries[a][b] == before.entries[Lift(o, p, a)][Lift(o, p, b)]
  }

  /**
   The structure matrix after a move at block offset `o` is the matrix before
   it read through `Lift(o, p, ·)`, and entries whose row and column both lie
   outside the moved window are where they were.
   */
  lemma MovedBlock<E>(before: Matrix<E>, after: Matrix<E>, o: nat, m: nat, indi: nat, indf: nat)
    requires before.IsSquare() && after.IsSquare() && after.rows == before.rows
    requires o + m <= before.rows && indi < m && indf < m
    requires forall a, b :: 0 <= a < after.rows && 0 <= b < after.rows ==>
      after.entries[a][b] == before.entries[Origin(before.rows, o + indi, o + indf, a)][Origin(before.rows, o + indi, o + indf, b)]
    ensures ReadThrough(before, after, o, MoveIndices(m, indi, indf))
    ensures forall a, b :: 0 <= a < before.rows && 0 <= b < before.rows && !InWindow(o, indi, indf, a) && !InWindow(o, indi, indf, b) ==>
      after.entries[a][b] == before.entries[a][b]
  {
    BlockOrigin(before.rows, o, m, indi, indf);
    forall a, b | 0 <= a < before.rows && 0 <= b < before.rows && !InWindow(o, indi, indf, a) && !InWindow(o, indi, indf, b)
      ensures after.entries[a][b] == before.entries[a][b]
    {
      OriginOutsideWindow(before.rows, o + indi, o + indf, a);
      OriginOutsideWindow(before.rows, o + indi, o + indf, b);
    }
  }

  /**
   `move_stor` on a well-formed core keeps it well-formed, and moves rows and
   columns of the state block of `M` by the permutation applied to `x`; the
   entries whose row and column lie outside the moved window stay in place.
   */
  lemma MoveStorInBlock<E>(c: Core<E>, indi: nat, indf: nat, zero: E)
    requires c.Valid() && indi < |c.x| && indf < |c.x|
    ensures MoveStor(c, indi, indf, zero).Valid()
    ensures ReadThrough(c.M, MoveStor(c, indi, indf, zero).M, 0, MoveIndices(|c.x|, indi, indf))
    ensures var r := MoveStor(c, indi, indf, zero);
      forall a, b :: 0 <= a < c.DimM() && 0 <= b < c.DimM() && !InWindow(0, indi, indf, a) && !InWindow(0, indi, indf, b) ==>
        r.M.entries[a][b] == c.M.entries[a][b]
  {
    var r := MoveStor(c, indi, indf, zero);
    assert r.M.IsSquare() && r.M.rows == c.M.rows == c.DimM();
    MovedBlock(c.M, r.M, 0, |c.x|, indi, indf);
  }

  /** `move_diss` on a well-formed core: `w`, `z` and the dissipation block of `M` (offset `dims.x()`) move together. */
  lemma MoveDissInBlock<E>(c: Core<E>, indi: nat, indf: nat, zero: E)
    requires c.Valid() && indi < |c.w| && indf < |c.w|
    requires MatrixMovable(c.Zl, indi, indf, zero)
    ensures MoveDiss(c, indi, indf, zero).Valid()
    ensures ReadThrough(c.M, MoveDiss(c, indi, indf, zero).M, |c.x|, MoveIndices(|c.w|, indi, indf))
    ensures |c.w| <= c.Zl.rows ==> ReadThrough(c.Zl, MoveDiss(c, indi, indf, zero).Zl, 0, MoveIndices(|c.w|, indi, indf))
    ensures var r := MoveDiss(c, indi, indf, zero);
      forall a, b :: 0 <= a < c.DimM() && 0 <= b < c.DimM() && !InWindow(|c.x|, indi, indf, a) && !InWindow(|c.x|, indi, indf, b) ==>
        r.M.entries[a][b] == c.M.entries[a][b]
  {
    var r := MoveDiss(c, indi, indf, zero);
    assert r.M.IsSquare() && r.M.rows == c.M.rows == c.DimM();
    MovedBlock(c.M, r.M, |c.x|, |c.w|, indi, indf);
    if |c.w| <= c.Zl.rows {
      MovedBlock(c.Zl, r.Zl, 0, |c.w|, indi, indf);
    }
  }

  /** `move_port` on a well-formed core: `u`, `y` and the port block of `M` (offset `dims.x() + dims.w()`) move together. */
  lemma MovePortInBlock<E>(c: Core<E>, indi: nat, indf: nat, zero: E)
    requires c.Valid() && indi < |c.y| && indf < |c.y|
    ensures MovePort(c, indi, indf, zero).Valid()
    ensures ReadThrough(c.M, MovePort(c, indi, indf, zero).M, |c.x| + |c.w|, MoveIndices(|c.y|, indi, indf))
    ensures var r := MovePort(c, indi, indf, zero);
      forall a, b :: 0 <= a < c.DimM() && 0 <= b < c.DimM() && !InWindow(|c.x| + |c.w|, indi, indf, a) && !InWindow(|c.x| + |c.w|, indi, indf, b) ==>
        r.M.entries[a][b] == c.M.entries[a][b]
  {
    var r := MovePort(c, indi, indf, zero);
    var o := |c.x| + |c.w|;
    assert r.M.IsSquare() && r.M.rows == c.M.rows == c.DimM();
    assert o + |c.y| <= c.M.rows && Movable(c.M.rows, o + indi, o + indf);
    MovedBlock(c.M, r.M, o, |c.y|, indi, indf);
  }

  /** `move_connector` on a well-formed core: `cu`, `cy` and the connector block of `M` (offset `dims.x() + dims.w() + dims.y()`) move together. */
  lemma MoveConnectorInBlock<E>(c: Core<E>, indi: nat, indf: nat, zero: E)
    requires c.Valid() && indi < |c.cy| && indf < |c.cy|
    ensures MoveConnector(c, indi, indf, zero).Valid()
    ensures ReadThrough(c.M, MoveConnector(c, indi, indf, zero).M, |c.x| + |c.w| + |c.y|, MoveIndices(|c.cy|, indi, indf))
    ensures var r := MoveConnector(c, indi, indf, zero);
      forall a, b :: 0 <= a < c.DimM() && 0 <= b < c.DimM() && !InWindow(|c.x| + |c.w| + |c.y|, indi, indf, a) && !InWindow(|c.x| + |c.w| + |c.y|, indi, indf, b) ==>
        r.M.entries[a][b] == c.M.entries[a][b]
  {
    var r := MoveConnector(c, indi, indf, zero);
    var o := |c.x| + |c.w| + |c.y|;
    assert r.M.IsSquare() && r.M.rows == c.M.rows == c.DimM();
    assert o + |c.cy| <= c.M.rows && Movable(c.M.rows, o + indi, o + indf);
    MovedBlock(c.M, r.M, o, |c.cy|, indi, indf);
  }
}

=== FILE: options.dfy ===
/** The `None`-or-value type used for optional attributes such as a core's cached gradient. */
module Options {

  datatype Option<+T> = None | Some(value: T)
}

=== FILE: partition.dfy ===
/**
 Bookkeeping for the split loops: which original indices a stable partition
 puts first, and the intermediate orders a "keep it or move it to the end"
 loop goes through.
 */
module Partition {

  import opened Permutations
  import opened Tools

  /** The indices `j < k` with `t[j] == b`, in increasing order. */
  function Pick(t: seq<bool>, k: nat, b: bool): (p: seq<nat>)
    requires k <= |t|
    ensures forall m :: 0 <= m < |p| ==> p[m] < k && t[p[m]] == b
    decreases k
  {
    if k == 0 then [] else Pick(t, k - 1, b) + (if t[k - 1] == b then [k - 1] else [])
  }

  /** `Pick` lists exactly the indices below `k` marked `b`. */
  lemma {:induction false} PickMembers(t: seq<bool>, k: nat, b: bool)
    requires k <= |t|
    ensures forall j: nat :: j in Pick(t, k, b) <==> j < k && t[j] == b
  {
    if k > 0 {
      PickMembers(t, k - 1, b);
    }
  }

  /** `Pick` keeps the original order: its entries strictly increase. */
  lemma {:induction false} PickIncreasing(t: seq<bool>, k: nat, b: bool)
    requires k <= |t|
    ensures forall m, n :: 0 <= m < n < |Pick(t, k, b)| ==> Pick(t, k, b)[m] < Pick(t, k, b)[n]
  {
    if k > 0 {
      PickIncreasing(t, k - 1, b);
    }
  }

  /** Every index below `k` is picked by exactly one of the two marks. */
  lemma {:induction false} PickCounts(t: seq<bool>, k: nat)
    requires k <= |t|
    ensures |Pick(t, k, true)| + |Pick(t, k, false)| == k
  {
    if k > 0 {
      PickCounts(t, k - 1);
    }
  }

  /** The number of marks `true` in `t`. */
  function CountTrue(t: seq<bool>): (n: nat)
    ensures n <= |t|
  {
    if |t| == 0 then 0 else CountTrue(t[..|t| - 1]) + (if t[|t| - 1] then 1 else 0)
  }

  /** The indices marked `true` are as many as the marks `true`. */
  lemma {:induction false} PickCountsTrue(t: seq<bool>, k: nat)
    requires k <= |t|
    ensures |Pick(t, k, true)| == CountTrue(t[..k])
  {
    if k > 0 {
      PickCountsTrue(t, k - 1);
      assert t[..k][..k - 1] == t[..k - 1];
    }
  }

  /**
   The stable partition of the indices of `t`: first those marked `true`,
   then those marked `false`, each group in its original order.
   */
  function StableOrder(t: seq<bool>): seq<nat> {
    Pick(t, |t|, true) + Pick(t, |t|, false)
  }

  /**
   The order a keep-or-move-to-end loop has reached after looking at the
   first `j` original indices: the kept ones, then the ones not looked at
   yet, then the moved ones, each group in original order.
   */
  predicate Midway(t: seq<bool>, j: nat, order: seq<nat>) {
    j <= |t| && order == Pick(t, j, true) + Range(j, |t|) + Pick(t, j, false)
  }

  /** `order` with its entry at position `i` moved to the end by `myrange(|order|, i, |order|-1)`. */
  function SendToEnd(order: seq<nat>, i: nat): (r: seq<nat>)
    requires i < |order|
    ensures |r| == |order|
  {
    Reorder(order, MoveIndices(|order|, i, |order| - 1))
  }

  /** Before any step, the order is the identity. */
  lemma MidwayStart(t: seq<bool>)
    ensures Midway(t, 0, Range(0, |t|))
  {
  }

  /** After the last step, the order is the stable partition and the counter has counted every mark `true`. */
  lemma MidwayDone(t: seq<bool>, order: seq<nat>, n: nat)
    requires Midway(t, |t|, order) && n == |Pick(t, |t|, true)|
    ensures order == StableOrder(t)
    ensures n == CountTrue(t)
  {
    assert Range(|t|, |t|) == [];
    PickCountsTrue(t, |t|);
    assert t[..|t|] == t;
  }

  /** Midway, the next index to look at sits just after the kept ones. */
  lemma MidwayNext(t: seq<bool>, j: nat, order: seq<nat>)
    requires Midway(t, j, order) && j < |t|
    ensures |Pick(t, j, true)| < |t| && order[|Pick(t, j, true)|] == j
  {
    PickCounts(t, j);
  }

  /** Keeping an index marked `true` advances the order without moving anything. */
  lemma MidwayKeep(t: seq<bool>, j: nat, order: seq<nat>)
    requires Midway(t, j, order) && j < |t| && t[j]
    ensures Midway(t, j + 1, order)
    ensures |Pick(t, j + 1, true)| == |Pick(t, j, true)| + 1
  {
    RangeCons(j, |t|);
  }

  /** Moving an index marked `false` to the end, with `myrange`, advances the order. */
  lemma MidwayMove(t: seq<bool>, j: nat, order: seq<nat>)
    requires Midway(t, j, order) && j < |t| && !t[j]
    ensures |Pick(t, j, true)| < |order| == |t|
    ensures |Pick(t, j + 1, true)| == |Pick(t, j, true)|
    ensures Midway(t, j + 1, SendToEnd(order, |Pick(t, j, true)|))
  {
    PickCounts(t, j);
    var kept, later, moved := Pick(t, j, true), Range(j + 1, |t|), Pick(t, j, false);
    RangeCons(j, |t|);
    assert order == kept + [j] + later + moved;
    MoveAfterKept(kept, j, later, moved);
    assert Pick(t, j + 1, true) == kept;
    assert Pick(t, j + 1, false) == moved + [j];
  }

  /** Moving the entry that follows `kept` to the end keeps everything else in order. */
  lemma MoveAfterKept<T>(kept: seq<T>, x: T, later: seq<T>, moved: seq<T>)
    ensures InBounds(MoveIndices(|kept + [x] + later + moved|, |kept|, |kept + [x] + later + moved| - 1), |kept + [x] + later + moved|)
    ensures Reorder(kept + [x] + later + moved, MoveIndices(|kept + [x] + later + moved|, |kept|, |kept + [x] + later + moved| - 1))
      == kept + later + (moved + [x])
  {
    var s := kept + [x] + later + moved;
    MoveToEnd(s, |kept|);
    assert s == kept + [x] + (later + moved);
    SplitAround(kept, x, later + moved);
  }

  lemma RangeCons(lo: nat, hi: nat)
    requires lo < hi
    ensures Range(lo, hi) == [lo] + Range(lo + 1, hi)
  {
  }

  lemma SplitAround<T>(a: seq<T>, x: T, b: seq<T>)
    ensures (a + [x] + b)[..|a|] == a && (a + [x] + b)[|a|] == x && (a + [x] + b)[|a| + 1..] == b
  {
  }

  /** Two repetition-free lists with no common entry concatenate into a repetition-free list. */
  lemma DistinctConcat(p: seq<nat>, q: seq<nat>)
    requires Distinct(p) && Distinct(q) && forall v :: v in p ==> v !in q
    ensures Distinct(p + q)
  {
    forall m, n | 0 <= m < n < |p + q|
      ensures (p + q)[m] != (p + q)[n]
    {
      if m < |p| <= n {
        assert (p + q)[m] in p && (p + q)[n] in q;
      }
    }
  }

  /** Every midway order is a permutation of the indices of `t`. */
  lemma MidwayIsPerm(t: seq<bool>, j: nat, order: seq<nat>)
    requires Midway(t, j, order)
    ensures IsPerm(order, |t|)
  {
    var kept, rest, moved := Pick(t, j, true), Range(j, |t|), Pick(t, j, false);
    PickCounts(t, j);
    PickMembers(t, j, true);
    PickMembers(t, j, false);
    PickIncreasing(t, j, true);
    PickIncreasing(t, j, false);
    assert forall v :: v in rest ==> j <= v;
    DistinctConcat(kept, rest);
    DistinctConcat(kept + rest, moved);
    forall v | 0 <= v < |t|
      ensures v in order
    {
      if v >= j {
        assert rest[v - j] == v;
      } else if t[v] {
        assert v in kept;
      } else {
        assert v in moved;
      }
    }
  }

  /** The stable partition is a permutation of the indices of `t`. */
  lemma StableOrderIsPerm(t: seq<bool>)
    ensures IsPerm(StableOrder(t), |t|)
  {
    assert Range(|t|, |t|) == [];
    MidwayIsPerm(t, |t|, StableOrder(t));
  }

  /**
   Reference definition of a stable filter: the elements of `s` whose mark
   in `t` is `b`, in their original order.
   */
  function Filter<T>(s: seq<T>, t: seq<bool>, b: bool): seq<T>
    requires |t| == |s|
  {
    if |s| == 0 then []
    else Filter(s[..|s| - 1], t[..|s| - 1], b) + (if t[|s| - 1] == b then [s[|s| - 1]] else [])
  }

  /** The elements marked `true` are `CountTrue(t)` in number, the ones marked `false` the rest. */
  lemma {:induction false} FilterLength<T>(s: seq<T>, t: seq<bool>)
    requires |t| == |s|
    ensures |Filter(s, t, true)| == CountTrue(t)
    ensures |Filter(s, t, false)| == |s| - CountTrue(t)
  {
    if |s| > 0 {
      FilterLength(s[..|s| - 1], t[..|s| - 1]);
    }
  }

  /** Reading `s` at the picked indices is filtering it. */
  lemma {:induction false} PickFilters<T>(s: seq<T>, t: seq<bool>, k: nat, b: bool)
    requires |t| == |s| && k <= |s|
    ensures InBounds(Pick(t, k, b), |s|)
    ensures Reorder(s, Pick(t, k, b)) == Filter(s[..k], t[..k], b)
  {
    if k > 0 {
      PickFilters(s, t, k - 1, b);
      assert s[..k][..k - 1] == s[..k - 1];
      assert t[..k][..k - 1] == t[..k - 1];
      var p := Pick(t, k - 1, b);
      var tail: seq<nat> := if t[k - 1] == b then [k - 1] else [];
      assert Reorder(s, p + tail) == Reorder(s, p) + Reorder(s, tail);
    }
  }

  /** Reordering by the stable partition puts the `true` elements first, then the `false` ones, each in order. */
  lemma StableOrderFilters<T>(s: seq<T>, t: seq<bool>)
    requires |t| == |s|
    ensures InBounds(StableOrder(t), |s|)
    ensures Reorder(s, StableOrder(t)) == Filter(s, t, true) + Filter(s, t, false)
  {
    PickFilters(s, t, |s|, true);
    PickFilters(s, t, |s|, false);
    assert s[..|s|] == s && t[..|s|] == t;
    var p, q := Pick(t, |s|, true), Pick(t, |s|, false);
    assert Reorder(s, p + q) == Reorder(s, p) + Reorder(s, q);
  }
}

=== FILE: permutations.dfy ===
/**
 Index permutations as sequences of naturals, and the list comprehension
 `[s[el] for el in p]` that applies one to a list.
 */
module Permutations {

  /** `p` lists every index `0..n-1` exactly once. */
  predicate IsPerm(p: seq<nat>, n: nat) {
    && |p| == n
    && (forall k :: 0 <= k < n ==> p[k] < n)
    && Distinct(p)
    && (forall v :: 0 <= v < n ==> v in p)
  }

  /** No entry of `s` is repeated. */
  predicate Distinct(s: seq<nat>) {
    forall m, n :: 0 <= m < n < |s| ==> s[m] != s[n]
  }

  /** True when every entry of `p` is an index of a sequence of length `n`. */
  predicate InBounds(p: seq<nat>, n: nat) {
    forall k :: 0 <= k < |p| ==> p[k] < n
  }

  /** `[s[el] for el in p]`. */
  function Reorder<T>(s: seq<T>, p: seq<nat>): (r: seq<T>)
    requires InBounds(p, |s|)
    ensures |r| == |p|
    ensures forall k :: 0 <= k < |p| ==> r[k] == s[p[k]]
  {
    seq(|p|, k requires 0 <= k < |p| => s[p[k]])
  }

  /**
   The action of `p` on the block `[o, o + |p|)` of a longer index range:
   inside the block the index is relabelled by `p`, outside it is left alone.
   */
  function Lift(o: nat, p: seq<nat>, k: nat): nat {
    if o <= k < o + |p| then o + p[k - o] else k
  }

  /** Relabelling by `p`, then by `q`, is relabelling by the composition. */
  lemma LiftCompose(o: nat, p: seq<nat>, q: seq<nat>, k: nat)
    requires |q| == |p| && InBounds(q, |p|)
    ensures Lift(o, p, Lift(o, q, k)) == Lift(o, Reorder(p, q), k)
  {
  }
}

=== FILE: splits.dfy ===
/**
 The split loops of `pyphs/core/structure/splits.py`. Each walks the states
 (or the dissipation variables), leaves a variable in place when a test on
 the criterion matrix passes, and otherwise moves it to the last position with
 `move_stor` (or `move_diss`), moving the criterion matrix along with it. The
 outcome is a stable partition of the variables, and the number of variables
 that passed is written to the core's dimensions.
 */
module Splits {

  import opened Options
  import opened Permutations
  import opened Tools
  import opened Matrices
  import opened Cores
  import opened Moves
  import opened Partition

  // ---------------------------------------------------------------------------
  // Criterion matrices and the per-variable tests
  // ---------------------------------------------------------------------------

  /**
   How the criterion follows a move: its rows and columns (the default
   Hessian and Jacobian, `movesquarematrixcolnrow`) or its columns only (a
   user-supplied criterion, `movematrixcols`).
   */
  datatype MoveKind = SquareMove | ColumnMove

  /**
   The test applied to variable `k`. `FreeOf(fs, arg)`: no entry of column `k`
   has a free symbol in `arg`, with `fs` standing for sympy's `free_symbols`
   (linear_nonlinear). `Separate(zero)`: every entry of row `k` off the
   diagonal is `zero` (monovar_multivar).
   */
  datatype Test<!E, S> = FreeOf(fs: E -> set<S>, arg: set<S>) | Separate(zero: E)

  /**
   A criterion matrix the loops can walk with `test` and move with `kind`:
   a square criterion moves rows and columns, and the row test needs a
   square criterion.
   */
  predicate Criterion<E, S>(h: Matrix<E>, kind: MoveKind, test: Test<E, S>) {
    && h.Valid()
    && (kind == SquareMove ==> h.IsSquare())
    && (test.Separate? ==> kind == SquareMove)
  }

  predicate Passes<E(==), S>(h: Matrix<E>, k: nat, test: Test<E, S>)
    requires h.Valid() && k < h.cols && (test.Separate? ==> k < h.rows)
  {
    match test
    case FreeOf(fs, arg) => forall r :: 0 <= r < h.rows ==> fs(h.entries[r][k]) !! arg
    case Separate(zero) => forall c :: 0 <= c < h.cols && c != k ==> h.entries[k][c] == zero
  }

  /** The outcome of the test for every variable, in the criterion's own column order. */
  function Marks<E(==), S>(h: Matrix<E>, test: Test<E, S>): (t: seq<bool>)
    requires h.Valid() && (test.Separate? ==> h.IsSquare())
    ensures |t| == h.cols
    ensures forall k :: 0 <= k < h.cols ==> t[k] == Passes(h, k, test)
  {
    seq(h.cols, k requires 0 <= k < h.cols => Passes(h, k, test))
  }

  /** `movefunc(h, indi, indf)`. */
  function MoveCriterion<E>(h: Matrix<E>, kind: MoveKind, indi: nat, indf: nat): (a: Matrix<E>)
    requires h.Valid() && (kind == SquareMove ==> h.IsSquare()) && Movable(h.cols, indi, indf)
    ensures a.Valid() && a.rows == h.rows && a.cols == h.cols
    ensures kind == SquareMove ==> forall r, c :: 0 <= r < a.rows && 0 <= c < a.cols ==>
      a.entries[r][c] == h.entries[Origin(h.cols, indi, indf, r)][Origin(h.cols, indi, indf, c)]
    ensures kind == ColumnMove ==> forall r, c :: 0 <= r < a.rows && 0 <= c < a.cols ==>
      a.entries[r][c] == h.entries[r][Origin(h.cols, indi, indf, c)]
  {
    match kind
    case SquareMove => MoveSquareMatrixColNRow(h, indi, indf)
    case ColumnMove => MoveMatrixCols(h, indi, indf)
  }

  /** `h` is the criterion `h0` with its variables put in the order `order`. */
  ghost predicate CriterionAligned<E>(h0: Matrix<E>, h: Matrix<E>, kind: MoveKind, order: seq<nat>) {
    && h0.Valid() && (kind == SquareMove ==> h0.IsSquare())
    && h.Valid() && h.rows == h0.rows && h.cols == h0.cols
    && |order| == h0.cols && InBounds(order, h0.cols)
    && (kind == SquareMove ==> forall a, b :: 0 <= a < h.rows && 0 <= b < h.cols ==>
         h.entries[a][b] == h0.entries[order[a]][order[b]])
    && (kind == ColumnMove ==> forall a, b :: 0 <= a < h.rows && 0 <= b < h.cols ==>
         h.entries[a][b] == h0.entries[a][order[b]])
  }

  /** Moving the criterion by `myrange` composes its order with the move. */
  lemma CriterionStep<E>(h0: Matrix<E>, h: Matrix<E>, kind: MoveKind, order: seq<nat>, i: nat)
    requires CriterionAligned(h0, h, kind, order) && i < h0.cols
    ensures CriterionAligned(h0, MoveCriterion(h, kind, i, h0.cols - 1), kind,
      SendToEnd(order, i))
  {
  }

  /**
   A variable passes the test in the moved criterion exactly when it passed in
   the original one: each column travels with its variable, and for a square
   criterion the entries of a row or column are only permuted.
   */
  lemma PassesAligned<E, S>(h0: Matrix<E>, h: Matrix<E>, kind: MoveKind, test: Test<E, S>, order: seq<nat>, k: nat)
    requires CriterionAligned(h0, h, kind, order) && Criterion(h0, kind, test)
    requires IsPerm(order, h0.cols) && k < h0.cols
    ensures Passes(h, k, test) <==> Passes(h0, order[k], test)
  {
    var ok := order[k];
    match test
    case FreeOf(fs, arg) =>
      if kind == SquareMove {
        if Passes(h0, ok, test) {
          forall r | 0 <= r < h.rows
            ensures fs(h.entries[r][k]) !! arg
          {
            assert h.entries[r][k] == h0.entries[order[r]][ok];
          }
        }
        if Passes(h, k, test) {
          forall r' | 0 <= r' < h0.rows
            ensures fs(h0.entries[r'][ok]) !! arg
          {
            assert r' in order;
            var r :| 0 <= r < |order| && order[r] == r';
            assert h.entries[r][k] == h0.entries[r'][ok];
          }
        }
      }
    case Separate(zero) =>
      if Passes(h0, ok, test) {
        forall c | 0 <= c < h.cols && c != k
          ensures h.entries[k][c] == zero
        {
          assert order[c] != ok;
          assert h.entries[k][c] == h0.entries[ok][order[c]];
        }
      }
      if Passes(h, k, test) {
        forall c' | 0 <= c' < h0.cols && c' != ok
          ensures h0.entries[ok][c'] == zero
        {
          assert c' in order;
          var c :| 0 <= c < |order| && order[c] == c';
          assert c != k;
          assert h.entries[k][c] == h0.entries[ok][c'];
        }
      }
  }

  // ---------------------------------------------------------------------------
  // Structure matrices read through a block order
  // ---------------------------------------------------------------------------

  /** Reading through `p`, then through `q`, is reading through their composition. */
  lemma ReadThroughCompose<E>(m0: Matrix<E>, m1: Matrix<E>, m2: Matrix<E>, o: nat, p: seq<nat>, q: seq<nat>)
    requires ReadThrough(m0, m1, o, p) && ReadThrough(m1, m2, o, q) && |q| == |p|
    ensures ReadThrough(m0, m2, o, Reorder(p, q))
  {
    forall a, b | 0 <= a < m0.rows && 0 <= b < m0.rows
      ensures m2.entries[a][b] == m0.entries[Lift(o, Reorder(p, q), a)][Lift(o, Reorder(p, q), b)]
    {
      LiftCompose(o, p, q, a);
      LiftCompose(o, p, q, b);
    }
  }

  /** Composition with a move of position `i` of the block to its end. */
  lemma ReadThroughSendToEnd<E>(m0: Matrix<E>, m1: Matrix<E>, m2: Matrix<E>, o: nat, p: seq<nat>, i: nat)
    requires ReadThrough(m0, m1, o, p) && i < |p| && ReadThrough(m1, m2, o, MoveIndices(|p|, i, |p| - 1))
    ensures ReadThrough(m0, m2, o, SendToEnd(p, i))
  {
    ReadThroughCompose(m0, m1, m2, o, p, MoveIndices(|p|, i, |p| - 1));
  }

  /** Reading a matrix through the identity order leaves it as it is. */
  lemma ReadThroughIdentity<E>(m: Matrix<E>, o: nat, n: nat)
    requires m.IsSquare() && o + n <= m.rows
    ensures ReadThrough(m, m, o, Range(0, n))
  {
    forall a, b | 0 <= a < m.rows && 0 <= b < m.rows
      ensures m.entries[a][b] == m.entries[Lift(o, Range(0, n), a)][Lift(o, Range(0, n), b)]
    {
      assert Lift(o, Range(0, n), a) == a && Lift(o, Range(0, n), b) == b;
    }
  }

  /** Reordering by the identity order changes nothing. */
  lemma ReorderIdentity<T>(s: seq<T>)
    ensures InBounds(Range(0, |s|), |s|) && Reorder(s, Range(0, |s|)) == s
  {
  }

  /** Before any move, a criterion is aligned with itself through the identity order. */
  lemma CriterionStart<E>(h: Matrix<E>, kind: MoveKind)
    requires h.Valid() && (kind == SquareMove ==> h.IsSquare())
    ensures CriterionAligned(h, h, kind, Range(0, h.cols))
  {
  }

  // ---------------------------------------------------------------------------
  // The storage side of a core, reordered
  // ---------------------------------------------------------------------------

  /**
   Where a variable that fails the test is sent: the last position
   (`dims.x()-1`, as linear_nonlinear does) or one past the end (`dims.x()`,
   as monovar_multivar does).
   */
  datatype Target = LastPosition | PastEnd

  function TargetIndex(target: Target, n: nat): nat
    requires n > 0
  {
    if target == LastPosition then n - 1 else n
  }

  /**
   `r` is `c` with its states put in the order `order`: `x` and `dxH` read
   through `order`, everything but `x`, `dxH` and `M` as it was.
   */
  ghost predicate StorListsAligned<E>(c: Core<E>, r: Core<E>, order: seq<nat>) {
    && c.Valid() && r.Valid()
    && r.w == c.w && r.z == c.z && r.u == c.u && r.y == c.y && r.cu == c.cu && r.cy == c.cy
    && r.Zl == c.Zl && r.dims == c.dims
    && r.M.rows == c.M.rows
    && |order| == |c.x| && InBounds(order, |c.x|)
    && r.x == Reorder(c.x, order)
    && (r.dxH.Some? <==> c.dxH.Some?)
    && (r.dxH.Some? ==> r.dxH.value == Reorder(c.dxH.value, order))
  }

  /** As `StorListsAligned`, and, for moves to the last position, the state block of `M` is read through the same order. */
  ghost predicate StorAligned<E>(c: Core<E>, r: Core<E>, order: seq<nat>, target: Target) {
    StorListsAligned(c, r, order) && (target == LastPosition ==> ReadThrough(c.M, r.M, 0, order))
  }

  /** Before any move, a core is aligned with itself through the identity order. */
  lemma StorStart<E>(c: Core<E>, target: Target)
    requires c.Valid()
    ensures StorAligned(c, c, Range(0, |c.x|), target)
  {
    ReorderIdentity(c.x);
    if c.dxH.Some? {
      ReorderIdentity(c.dxH.value);
    }
    ReadThroughIdentity(c.M, 0, |c.x|);
  }

  /** Either target takes the entry at `i` out of a list and appends it, keeping the others in order. */
  lemma ToEndList<T>(s: seq<T>, i: nat, target: Target)
    requires i < |s|
    ensures Movable(|s|, i, TargetIndex(target, |s|))
    ensures MoveList(s, |s|, i, TargetIndex(target, |s|)) == s[..i] + s[i + 1..] + [s[i]]
  {
    MoveToEnd(s, i);
    forall k | 0 <= k < |s|
      ensures Origin(|s|, i, TargetIndex(target, |s|), k) == Origin(|s|, i, |s| - 1, k)
    {
      OriginPastEnd(|s|, i, k);
    }
  }

  /** `move_stor(core, i, target)` composes the order of the states with a move to the last position. */
  lemma StorStepLists<E>(c: Core<E>, r: Core<E>, order: seq<nat>, i: nat, target: Target, zero: E)
    requires StorListsAligned(c, r, order) && i < |c.x|
    ensures StorListsAligned(c, MoveStor(r, i, TargetIndex(target, |c.x|), zero),
      SendToEnd(order, i))
  {
    var r' := MoveStor(r, i, TargetIndex(target, |c.x|), zero);
    forall k | 0 <= k < |c.x|
      ensures Origin(|c.x|, i, TargetIndex(target, |c.x|), k) == Origin(|c.x|, i, |c.x| - 1, k)
    {
      OriginPastEnd(|c.x|, i, k);
    }
  }

  /** With a move to the last position, `M` follows the states. */
  lemma StorStepM<E>(m: Matrix<E>, r: Core<E>, r': Core<E>, order: seq<nat>, i: nat, zero: E)
    requires r.Valid() && ReadThrough(m, r.M, 0, order) && |order| == |r.x| && i < |r.x|
    requires r' == MoveStor(r, i, |r.x| - 1, zero)
    ensures ReadThrough(m, r'.M, 0, SendToEnd(order, i))
  {
    MoveStorInBlock(r, i, |r.x| - 1, zero);
    ReadThroughSendToEnd(m, r.M, r'.M, 0, order, i);
  }

  /** `move_stor(core, i, target)` on a core whose states are in the order `order`. */
  method StorToEnd<E(==)>(c: Core<E>, r: Core<E>, ghost order: seq<nat>, i: nat, target: Target, zero: E)
    returns (r': Core<E>, ghost order': seq<nat>)
    requires StorAligned(c, r, order, target) && i < |c.x|
    ensures order' == SendToEnd(order, i)
    ensures StorAligned(c, r', order', target)
    ensures r'.x == r.x[..i] + r.x[i + 1..] + [r.x[i]]
  {
    StorStepLists(c, r, order, i, target, zero);
    ToEndList(r.x, i, target);
    r' := MoveStor(r, i, TargetIndex(target, |c.x|), zero);
    order' := SendToEnd(order, i);
    if target == LastPosition {
      assert TargetIndex(target, |c.x|) == |r.x| - 1;
      StorStepM(c.M, r, r', order, i, zero);
    }
  }

  /** `movefunc(h, i, dims.x()-1)` on a criterion whose columns are in the order `order`. */
  method CriterionToEnd<E>(h0: Matrix<E>, h: Matrix<E>, kind: MoveKind, ghost order: seq<nat>, i: nat)
    returns (h': Matrix<E>)
    requires CriterionAligned(h0, h, kind, order) && i < h0.cols
    ensures CriterionAligned(h0, h', kind, SendToEnd(order, i))
  {
    CriterionStep(h0, h, kind, order, i);
    h' := MoveCriterion(h, kind, i, h0.cols - 1);
  }

  /**
   Midway through a loop, the variable at position `|Pick(t, it, true)|` is
   the original variable `it`, and the test on the moved criterion gives its
   mark.
   */
  lemma MarkFollows<E, S>(h0: Matrix<E>, h: Matrix<E>, kind: MoveKind, test: Test<E, S>,
                          t: seq<bool>, it: nat, order: seq<nat>)
    requires Criterion(h0, kind, test) && t == Marks(h0, test) && it < |t|
    requires Midway(t, it, order) && CriterionAligned(h0, h, kind, order)
    ensures |Pick(t, it, true)| < h.cols && (test.Separate? ==> |Pick(t, it, true)| < h.rows)
    ensures order[|Pick(t, it, true)|] == it
    ensures Passes(h, |Pick(t, it, true)|, test) == t[it]
  {
    MidwayIsPerm(t, it, order);
    MidwayNext(t, it, order);
    PassesAligned(h0, h, kind, test, order, |Pick(t, it, true)|);
  }

  /**
   One pass of the storage loop: state `n`, the first one not looked at yet,
   is kept when it passed the test (`pass`), and moved otherwise.
   */
  method StorageStep<E(==)>(c: Core<E>, hess: Matrix<E>, kind: MoveKind, target: Target, zero: E,
                            ghost t: seq<bool>, ghost it: nat, ghost order: seq<nat>,
                            r: Core<E>, h: Matrix<E>, n: nat, pass: bool)
    returns (r': Core<E>, h': Matrix<E>, n': nat, ghost order': seq<nat>)
    requires hess.cols == |c.x| == |t| && it < |t| && pass == t[it]
    requires Midway(t, it, order) && n == |Pick(t, it, true)|
    requires StorAligned(c, r, order, target) && CriterionAligned(hess, h, kind, order)
    ensures Midway(t, it + 1, order') && n' == |Pick(t, it + 1, true)|
    ensures StorAligned(c, r', order', target) && CriterionAligned(hess, h', kind, order')
  {
    if pass {
      MidwayKeep(t, it, order);
      r', h', n', order' := r, h, n + 1, order;
    } else {
      MidwayMove(t, it, order);
      r', order' := StorToEnd(c, r, order, n, target, zero);
      h' := CriterionToEnd(hess, h, kind, order, n);
      n' := n;
    }
  }

  /**
   The storage loop: `for _ in range(h.shape[1])`, keep state `i` when it
   passes the test (and count it), otherwise `move_stor(core, i, target)`
   and move the criterion alike. The states end up stably partitioned by the
   test run on the original criterion, which travels along with them.
   */
  method StorageLoop<E(==), S>(c: Core<E>, hess: Matrix<E>, kind: MoveKind, test: Test<E, S>, target: Target, zero: E)
    returns (r: Core<E>, h: Matrix<E>, n: nat)
    requires c.Valid() && Criterion(hess, kind, test) && hess.cols == |c.x|
    ensures n == CountTrue(Marks(hess, test))
    ensures StorAligned(c, r, StableOrder(Marks(hess, test)), target)
    ensures CriterionAligned(hess, h, kind, StableOrder(Marks(hess, test)))
  {
    ghost var t := Marks(hess, test);
    ghost var order := Range(0, |c.x|);
    r, h, n := c, hess, 0;
    MidwayStart(t);
    StorStart(c, target);
    CriterionStart(hess, kind);
    for it := 0 to hess.cols
      invariant Midway(t, it, order)
      invariant n == |Pick(t, it, true)|
      invariant StorAligned(c, r, order, target)
      invariant CriterionAligned(hess, h, kind, order)
    {
      MarkFollows(hess, h, kind, test, t, it, order);
      var pass := Passes(h, n, test);
      r, h, n, order := StorageStep(c, hess, kind, target, zero, t, it, order, r, h, n, pass);
    }
    MidwayDone(t, order, n);
  }

  // ---------------------------------------------------------------------------
  // The dissipative side of a core, reordered
  // ---------------------------------------------------------------------------

  /** `Zl` can follow every `move_diss` of a loop: it is zero, or it covers every dissipation variable. */
  predicate ZlMovable<E(==)>(c: Core<E>, zero: E)
    requires c.Zl.Valid()
  {
    IsZero(c.Zl, zero) || |c.w| <= c.Zl.rows
  }

  /**
   `r` is `c` with its dissipation variables put in the order `order`: `w`
   and `z` read through `order` in lockstep, a `Zl` too small to move left
   as it was, everything but `w`, `z`, `M` and `Zl` as it was.
   */
  ghost predicate DissListsAligned<E>(c: Core<E>, r: Core<E>, order: seq<nat>) {
    && c.Valid() && r.Valid()
    && r.x == c.x && r.dxH == c.dxH && r.u == c.u && r.y == c.y && r.cu == c.cu && r.cy == c.cy
    && r.dims == c.dims
    && r.M.rows == c.M.rows && r.Zl.rows == c.Zl.rows
    && |order| == |c.w| && InBounds(order, |c.w|)
    && r.w == Reorder(c.w, order) && r.z == Reorder(c.z, order)
    && (c.Zl.rows < |c.w| ==> r.Zl == c.Zl)
  }

  /**
   As `DissListsAligned`, and, for moves to the last position, the
   dissipation block of `M` and a `Zl` that covers `w` are read through the
   same order.
   */
  ghost predicate DissAligned<E>(c: Core<E>, r: Core<E>, order: seq<nat>, target: Target) {
    && DissListsAligned(c, r, order)
    && (target == LastPosition ==> ReadThrough(c.M, r.M, |c.x|, order))
    && (target == LastPosition && |c.w| <= c.Zl.rows ==> ReadThrough(c.Zl, r.Zl, 0, order))
  }

  /** Before any move, a core is aligned with itself through the identity order. */
  lemma DissStart<E>(c: Core<E>, target: Target)
    requires c.Valid()
    ensures DissAligned(c, c, Range(0, |c.w|), target)
  {
    ReorderIdentity(c.w);
    ReorderIdentity(c.z);
    ReadThroughIdentity(c.M, |c.x|, |c.w|);
    if |c.w| <= c.Zl.rows {
      ReadThroughIdentity(c.Zl, 0, |c.w|);
    }
  }

  lemma DissStepLists<E>(c: Core<E>, r: Core<E>, order: seq<nat>, i: nat, target: Target, zero: E)
    requires DissListsAligned(c, r, order) && ZlMovable(c, zero) && i < |c.w|
    ensures MatrixMovable(r.Zl, i, TargetIndex(target, |c.w|), zero)
    ensures DissListsAligned(c, MoveDiss(r, i, TargetIndex(target, |c.w|), zero),
      SendToEnd(order, i))
  {
    var r' := MoveDiss(r, i, TargetIndex(target, |c.w|), zero);
    forall k | 0 <= k < |c.w|
      ensures Origin(|c.w|, i, TargetIndex(target, |c.w|), k) == Origin(|c.w|, i, |c.w| - 1, k)
    {
      OriginPastEnd(|c.w|, i, k);
    }
  }

  /** With a move to the last position, the dissipation block of `M` follows `w`. */
  lemma DissStepM<E>(m: Matrix<E>, r: Core<E>, r': Core<E>, order: seq<nat>, i: nat, zero: E)
    requires r.Valid() && ReadThrough(m, r.M, |r.x|, order) && |order| == |r.w| && i < |r.w|
    requires MatrixMovable(r.Zl, i, |r.w| - 1, zero) && r' == MoveDiss(r, i, |r.w| - 1, zero)
    ensures ReadThrough(m, r'.M, |r.x|, SendToEnd(order, i))
  {
    MoveDissInBlock(r, i, |r.w| - 1, zero);
    ReadThroughSendToEnd(m, r.M, r'.M, |r.x|, order, i);
  }

  /** With a move to the last position, a `Zl` that covers `w` follows it. */
  lemma DissStepZl<E>(m: Matrix<E>, r: Core<E>, r': Core<E>, order: seq<nat>, i: nat, zero: E)
    requires r.Valid() && ReadThrough(m, r.Zl, 0, order) && |order| == |r.w| && i < |r.w| <= r.Zl.rows
    requires MatrixMovable(r.Zl, i, |r.w| - 1, zero) && r' == MoveDiss(r, i, |r.w| - 1, zero)
    ensures ReadThrough(m, r'.Zl, 0, SendToEnd(order, i))
  {
    MoveDissInBlock(r, i, |r.w| - 1, zero);
    ReadThroughSendToEnd(m, r.Zl, r'.Zl, 0, order, i);
  }

  /** `move_diss(core, i, target)` on a core whose dissipation variables are in the order `order`. */
  method DissToEnd<E(==)>(c: Core<E>, r: Core<E>, ghost order: seq<nat>, i: nat, target: Target, zero: E)
    returns (r': Core<E>, ghost order': seq<nat>)
    requires DissAligned(c, r, order, target) && ZlMovable(c, zero) && i < |c.w|
    ensures order' == SendToEnd(order, i)
    ensures DissAligned(c, r', order', target)
    ensures r'.w == r.w[..i] + r.w[i + 1..] + [r.w[i]] && r'.z == r.z[..i] + r.z[i + 1..] + [r.z[i]]
  {
    DissStepLists(c, r, order, i, target, zero);
    ToEndList(r.w, i, target);
    ToEndList(r.z, i, target);
    r' := MoveDiss(r, i, TargetIndex(target, |c.w|), zero);
    order' := SendToEnd(order, i);
    if target == LastPosition {
      assert |r.x| == |c.x| && TargetIndex(target, |c.w|) == |r.w| - 1;
      DissStepM(c.M, r, r', order, i, zero);
      if |c.w| <= c.Zl.rows {
        DissStepZl(c.Zl, r, r', order, i, zero);
      }
    }
  }

  /**
   What the dissipative loop keeps after looking at the first `it`
   variables: the order reached (`Midway`), the count of variables kept so
   far, and the core and the criterion read through that order.
   */
  ghost predicate DissLoopInvariant<E, S>(c: Core<E>, jacz: Matrix<E>, kind: MoveKind, test: Test<E, S>,
                                         target: Target, zero: E, t: seq<bool>, it: nat,
                                         order: seq<nat>, r: Core<E>, h: Matrix<E>, n: nat) {
    && c.Valid() && ZlMovable(c, zero)
    && Criterion(jacz, kind, test) && jacz.cols == |c.w| && t == Marks(jacz, test)
    && Midway(t, it, order) && n == |Pick(t, it, true)|
    && DissAligned(c, r, order, target) && CriterionAligned(jacz, h, kind, order)
  }

  /**
   One pass of the dissipative loop, as `StorageStep` for the states: test
   variable `n` on the moved criterion, keep it and count it when it passes,
   otherwise `move_diss(core, n, target)` and move the criterion alike.
   */
  method DissStep<E(==), S>(c: Core<E>, jacz: Matrix<E>, kind: MoveKind, test: Test<E, S>, target: Target, zero: E,
                            ghost t: seq<bool>, ghost it: nat, ghost order: seq<nat>,
                            r: Core<E>, h: Matrix<E>, n: nat)
    returns (r': Core<E>, h': Matrix<E>, n': nat, ghost order': seq<nat>)
    requires DissLoopInvariant(c, jacz, kind, test, target, zero, t, it, order, r, h, n) && it < |t|
    ensures DissLoopInvariant(c, jacz, kind, test, target, zero, t, it + 1, order', r', h', n')
    ensures n' == n + (if t[it] then 1 else 0)
    ensures t[it] ==> r' == r && h' == h
  {
    MarkFollows(jacz, h, kind, test, t, it, order);
    if Passes(h, n, test) {
      MidwayKeep(t, it, order);
      r', h', n', order' := r, h, n + 1, order;
    } else {
      MidwayMove(t, it, order);
      r', order' := DissToEnd(c, r, order, n, target, zero);
      h' := CriterionToEnd(jacz, h, kind, order, n);
      n' := n;
    }
  }

  /**
   The dissipative loop: `for _ in range(jacz.shape[1])`, keep variable `i`
   when it passes the test (and count it), otherwise
   `move_diss(core, i, target)` and move the criterion alike.
   */
  method DissLoop<E(==), S>(c: Core<E>, jacz: Matrix<E>, kind: MoveKind, test: Test<E, S>, target: Target, zero: E)
    returns (r: Core<E>, h: Matrix<E>, n: nat)
    requires c.Valid() && ZlMovable(c, zero) && Criterion(jacz, kind, test) && jacz.cols == |c.w|
    ensures n == CountTrue(Marks(jacz, test))
    ensures DissAligned(c, r, StableOrder(Marks(jacz, test)), target)
    ensures CriterionAligned(jacz, h, kind, StableOrder(Marks(jacz, test)))
  {
    ghost var t := Marks(jacz, test);
    ghost var order := Range(0, |c.w|);
    r, h, n := c, jacz, 0;
    MidwayStart(t);
    DissStart(c, target);
    CriterionStart(jacz, kind);
    assert DissLoopInvariant(c, jacz, kind, test, target, zero, t, 0, order, r, h, n);
    // Compared with `true`, the invariant is checked as one fact instead of
    // conjunct by conjunct, which keeps the proof of the loop small.
    for it := 0 to jacz.cols
      invariant DissLoopInvariant(c, jacz, kind, test, target, zero, t, it, order, r, h, n) == true
    {
      r, h, n, order := DissStep(c, jacz, kind, test, target, zero, t, it, order, r, h, n);
    }
    MidwayDone(t, order, n);
  }

  // ---------------------------------------------------------------------------
  // The two splits
  // ---------------------------------------------------------------------------

  /** The lists a storage loop and then a dissipative loop leave behind are stable partitions of the originals. */
  lemma SplitLists<E>(c: Core<E>, r1: Core<E>, r2: Core<E>, tx: seq<bool>, tw: seq<bool>)
    requires |tx| == |c.x| && |tw| == |c.w|
    requires StorListsAligned(c, r1, StableOrder(tx)) && DissListsAligned(r1, r2, StableOrder(tw))
    ensures r2.x == Filter(c.x, tx, true) + Filter(c.x, tx, false)
    ensures r2.dxH.Some? <==> c.dxH.Some?
    ensures c.dxH.Some? ==> r2.dxH.value == Filter(c.dxH.value, tx, true) + Filter(c.dxH.value, tx, false)
    ensures r2.w == Filter(c.w, tw, true) + Filter(c.w, tw, false)
    ensures r2.z == Filter(c.z, tw, true) + Filter(c.z, tw, false)
    ensures r2.u == c.u && r2.y == c.y && r2.cu == c.cu && r2.cy == c.cy && r2.dims == c.dims
  {
    StableOrderFilters(c.x, tx);
    if c.dxH.Some? {
      StableOrderFilters(c.dxH.value, tx);
    }
    StableOrderFilters(c.w, tw);
    StableOrderFilters(c.z, tw);
  }

  /**
   `after` is `before` with the rows and columns of the state block
   `[0, |ox|)` put in the order `ox` and those of the dissipation block that
   follows it put in the order `ow`; the other rows and columns stay in place.
   */
  ghost predicate SplitRead<E>(before: Matrix<E>, after: Matrix<E>, ox: seq<nat>, ow: seq<nat>) {
    && before.IsSquare() && after.IsSquare() && after.rows == before.rows
    && |ox| + |ow| <= before.rows && InBounds(ox, |ox|) && InBounds(ow, |ow|)
    && forall a, b :: 0 <= a < before.rows && 0 <= b < before.rows ==>
         after.entries[a][b] == before.entries[Lift(0, ox, Lift(|ox|, ow, a))][Lift(0, ox, Lift(|ox|, ow, b))]
  }

  /** Reading the state block, then the dissipation block, is reading both at once. */
  lemma SplitBlocks<E>(m0: Matrix<E>, m1: Matrix<E>, m2: Matrix<E>, ox: seq<nat>, ow: seq<nat>)
    requires ReadThrough(m0, m1, 0, ox) && ReadThrough(m1, m2, |ox|, ow)
    ensures SplitRead(m0, m2, ox, ow)
  {
    forall a, b | 0 <= a < m0.rows && 0 <= b < m0.rows
      ensures m2.entries[a][b] == m0.entries[Lift(0, ox, Lift(|ox|, ow, a))][Lift(0, ox, Lift(|ox|, ow, b))]
    {
      var a', b' := Lift(|ox|, ow, a), Lift(|ox|, ow, b);
      assert a' < m0.rows && b' < m0.rows;
      assert m2.entries[a][b] == m1.entries[a'][b'];
    }
  }

  /**
   `linear_nonlinear(core, criterion)`: the states whose column of the
   criterion `hess` has no free symbol in `argx` come first, in their
   original order, then the others; likewise for the dissipation variables
   with `jacz` and `argz`. `M` follows both reorderings, `Zl` follows the
   dissipation variables, and the numbers of linear components are
   written to `dims.xl` and `dims.wl`.
   */
  method LinearNonlinear<E(==), S>(c: Core<E>, hess: Matrix<E>, argx: set<S>, jacz: Matrix<E>, argz: set<S>,
                                   kind: MoveKind, fs: E -> set<S>, zero: E)
    returns (r: Core<E>)
    requires c.Valid() && ZlMovable(c, zero)
    requires Criterion(hess, kind, FreeOf(fs, argx)) && hess.cols == |c.x|
    requires Criterion(jacz, kind, FreeOf(fs, argz)) && jacz.cols == |c.w|
    ensures var tx := Marks(hess, FreeOf(fs, argx));
      && r.x == Filter(c.x, tx, true) + Filter(c.x, tx, false)
      && (r.dxH.Some? <==> c.dxH.Some?)
      && (c.dxH.Some? ==> r.dxH.value == Filter(c.dxH.value, tx, true) + Filter(c.dxH.value, tx, false))
      && r.dims.xl == CountTrue(tx) == |Filter(c.x, tx, true)|
      && r.x[..r.dims.xl] == Filter(c.x, tx, true) && r.x[r.dims.xl..] == Filter(c.x, tx, false)
    ensures var tw := Marks(jacz, FreeOf(fs, argz));
      && r.w == Filter(c.w, tw, true) + Filter(c.w, tw, false)
      && r.z == Filter(c.z, tw, true) + Filter(c.z, tw, false)
      && r.dims.wl == CountTrue(tw) == |Filter(c.w, tw, true)|
      && r.w[..r.dims.wl] == Filter(c.w, tw, true) && r.w[r.dims.wl..] == Filter(c.w, tw, false)
    ensures r.u == c.u && r.y == c.y && r.cu == c.cu && r.cy == c.cy
    ensures r.dims == c.dims.(xl := r.dims.xl, wl := r.dims.wl)
    ensures SplitRead(c.M, r.M, StableOrder(Marks(hess, FreeOf(fs, argx))), StableOrder(Marks(jacz, FreeOf(fs, argz))))
    ensures |c.w| <= c.Zl.rows ==> ReadThrough(c.Zl, r.Zl, 0, StableOrder(Marks(jacz, FreeOf(fs, argz))))
  {
    ghost var tx, tw := Marks(hess, FreeOf(fs, argx)), Marks(jacz, FreeOf(fs, argz));
    var r1, h1, nx := StorageLoop(c, hess, kind, FreeOf(fs, argx), LastPosition, zero);
    var r2, h2, nw := DissLoop(r1, jacz, kind, FreeOf(fs, argz), LastPosition, zero);
    SplitLists(c, r1, r2, tx, tw);
    FilterLength(c.x, tx);
    FilterLength(c.w, tw);
    SplitBlocks(c.M, r1.M, r2.M, StableOrder(tx), StableOrder(tw));
    r := r2.(dims := r2.dims.(xl := nx, wl := nw));
  }

  /**
   `monovar_multivar(core)` as the split loops would run it with moves to
   the last position: the states whose row of the Hessian `hess` is zero off
   the diagonal come first, in their original order, then the others; likewise
   for the dissipation variables with the Jacobian `jacz`. `M` and `Zl` follow
   the variables, and the counts of separate and non-separate components are
   written to `dims`.
   */
  method MonovarMultivar<E(==)>(c: Core<E>, hess: Matrix<E>, jacz: Matrix<E>, zero: E) returns (r: Core<E>)
    requires c.Valid() && ZlMovable(c, zero)
    requires hess.IsSquare() && hess.cols == |c.x| && jacz.IsSquare() && jacz.cols == |c.w|
    ensures var tx := Marks(hess, Test<E, E>.Separate(zero));
      && r.x == Filter(c.x, tx, true) + Filter(c.x, tx, false)
      && (r.dxH.Some? <==> c.dxH.Some?)
      && (c.dxH.Some? ==> r.dxH.value == Filter(c.dxH.value, tx, true) + Filter(c.dxH.value, tx, false))
      && r.dims.xs == CountTrue(tx) == |Filter(c.x, tx, true)|
      && r.dims.xns == |c.x| - CountTrue(tx) == |Filter(c.x, tx, false)|
      && r.x[..r.dims.xs] == Filter(c.x, tx, true) && r.x[r.dims.xs..] == Filter(c.x, tx, false)
    ensures var tw := Marks(jacz, Test<E, E>.Separate(zero));
      && r.w == Filter(c.w, tw, true) + Filter(c.w, tw, false)
      && r.z == Filter(c.z, tw, true) + Filter(c.z, tw, false)
      && r.dims.ws == CountTrue(tw) == |Filter(c.w, tw, true)|
      && r.dims.wns == |c.w| - CountTrue(tw) == |Filter(c.w, tw, false)|
      && r.w[..r.dims.ws] == Filter(c.w, tw, true) && r.w[r.dims.ws..] == Filter(c.w, tw, false)
    ensures r.u == c.u && r.y == c.y && r.cu == c.cu && r.cy == c.cy
    ensures r.dims == c.dims.(xs := r.dims.xs, xns := r.dims.xns, ws := r.dims.ws, wns := r.dims.wns)
    ensures SplitRead(c.M, r.M, StableOrder(Marks(hess, Test<E, E>.Separate(zero))), StableOrder(Marks(jacz, Test<E, E>.Separate(zero))))
    ensures |c.w| <= c.Zl.rows ==> ReadThrough(c.Zl, r.Zl, 0, StableOrder(Marks(jacz, Test<E, E>.Separate(zero))))
  {
    var test: Test<E, E> := Separate(zero);
    ghost var tx, tw := Marks(hess, test), Marks(jacz, test);
    var r1, h1, nx := StorageLoop(c, hess, SquareMove, test, LastPosition, zero);
    var r2, h2, nw := DissLoop(r1, jacz, SquareMove, test, LastPosition, zero);
    SplitLists(c, r1, r2, tx, tw);
    FilterLength(c.x, tx);
    FilterLength(c.w, tw);
    SplitBlocks(c.M, r1.M, r2.M, StableOrder(tx), StableOrder(tw));
    r := r2.(dims := r2.dims.(xs := nx, xns := |c.x| - nx, ws := nw, wns := |c.w| - nw));
  }

  /**
   `monovar_multivar(core)` as written: each move goes to index `dims.x()`
   (`dims.w()`), one past the last variable. The lists and the counts come
   out as in `MonovarMultivar`; the structure matrix does not (see
   `PastEndMisalignsM`).
   */
  method MonovarMultivarAsWritten<E(==)>(c: Core<E>, hess: Matrix<E>, jacz: Matrix<E>, zero: E) returns (r: Core<E>)
    requires c.Valid() && ZlMovable(c, zero)
    requires hess.IsSquare() && hess.cols == |c.x| && jacz.IsSquare() && jacz.cols == |c.w|
    ensures var tx := Marks(hess, Test<E, E>.Separate(zero));
      && r.x == Filter(c.x, tx, true) + Filter(c.x, tx, false)
      && (r.dxH.Some? <==> c.dxH.Some?)
      && (c.dxH.Some? ==> r.dxH.value == Filter(c.dxH.value, tx, true) + Filter(c.dxH.value, tx, false))
      && r.dims.xs == CountTrue(tx) == |Filter(c.x, tx, true)|
      && r.dims.xns == |c.x| - CountTrue(tx) == |Filter(c.x, tx, false)|
      && r.x[..r.dims.xs] == Filter(c.x, tx, true) && r.x[r.dims.xs..] == Filter(c.x, tx, false)
    ensures var tw := Marks(jacz, Test<E, E>.Separate(zero));
      && r.w == Filter(c.w, tw, true) + Filter(c.w, tw, false)
      && r.z == Filter(c.z, tw, true) + Filter(c.z, tw, false)
      && r.dims.ws == CountTrue(tw) == |Filter(c.w, tw, true)|
      && r.dims.wns == |c.w| - CountTrue(tw) == |Filter(c.w, tw, false)|
      && r.w[..r.dims.ws] == Filter(c.w, tw, true) && r.w[r.dims.ws..] == Filter(c.w, tw, false)
    ensures r.u == c.u && r.y == c.y && r.cu == c.cu && r.cy == c.cy
    ensures r.dims == c.dims.(xs := r.dims.xs, xns := r.dims.xns, ws := r.dims.ws, wns := r.dims.wns)
  {
    var test: Test<E, E> := Separate(zero);
    ghost var tx, tw := Marks(hess, test), Marks(jacz, test);
    var r1, h1, nx := StorageLoop(c, hess, SquareMove, test, PastEnd, zero);
    var r2, h2, nw := DissLoop(r1, jacz, SquareMove, test, PastEnd, zero);
    SplitLists(c, r1, r2, tx, tw);
    FilterLength(c.x, tx);
    FilterLength(c.w, tw);
    r := r2.(dims := r2.dims.(xs := nx, xns := |c.x| - nx, ws := nw, wns := |c.w| - nw));
  }

  /**
   A move one past the end is a move to the last position when the states
   are the only block of `M`: with no dissipation variables, ports or
   connectors, the as-written storage move agrees with the corrected one.
   */
  lemma PastEndAgreesWhenAlone<E>(c: Core<E>, i: nat, zero: E)
    requires c.Valid() && i < |c.x| && |c.w| == 0 && |c.y| == 0 && |c.cy| == 0
    ensures MoveStor(c, i, |c.x|, zero) == MoveStor(c, i, |c.x| - 1, zero)
  {
    var r1, r2 := MoveStor(c, i, |c.x|, zero), MoveStor(c, i, |c.x| - 1, zero);
    var n := |c.x|;
    forall k | 0 <= k < n
      ensures Origin(n, i, n, k) == Origin(n, i, n - 1, k)
    {
      OriginPastEnd(n, i, k);
    }
    assert r1.x == r2.x;
    if c.dxH.Some? {
      assert r1.dxH.value == r2.dxH.value;
    }
    PastEndSameMatrix(c.M, r1.M, r2.M, i);
  }

  /** Two matrices read from `m` through `myrange(n, i, n)` and `myrange(n, i, n-1)` are the same matrix. */
  lemma PastEndSameMatrix<E>(m: Matrix<E>, m1: Matrix<E>, m2: Matrix<E>, i: nat)
    requires m.IsSquare() && i < m.rows
    requires m1.IsSquare() && m1.rows == m.rows && m2.IsSquare() && m2.rows == m.rows
    requires forall a, b :: 0 <= a < m.rows && 0 <= b < m.rows ==>
      m1.entries[a][b] == m.entries[Origin(m.rows, i, m.rows, a)][Origin(m.rows, i, m.rows, b)]
    requires forall a, b :: 0 <= a < m.rows && 0 <= b < m.rows ==>
      m2.entries[a][b] == m.entries[Origin(m.rows, i, m.rows - 1, a)][Origin(m.rows, i, m.rows - 1, b)]
    ensures m1 == m2
  {
    forall a | 0 <= a < m.rows
      ensures m1.entries[a] == m2.entries[a]
    {
      forall b | 0 <= b < m.rows
        ensures m1.entries[a][b] == m2.entries[a][b]
      {
        OriginPastEnd(m.rows, i, a);
        OriginPastEnd(m.rows, i, b);
      }
    }
  }

  /** Two states and one dissipation variable: `M` has the state block `[0, 2)` and the dissipation block `[2, 3)`. */
  function PastEndExample(): (c: Core<int>)
    ensures c.Valid() && |c.x| == 2 && |c.w| == 1
  {
    Core([1, 2], None, [3], [4], [], [], [], [],
         Matrix(3, 3, [[11, 12, 13], [21, 22, 23], [31, 32, 33]]), Matrix(0, 0, []),
         Dims(0, 0, 0, 0, 0, 0))
  }

  /**
   The as-written move of state 0 to index `dims.x() == 2` swaps the two
   states, as the corrected move to index 1 does, but sends row and column 0
   of `M` to position 2, inside the dissipation block: the entry of `M` for
   the state now at position 1 (originally state 0, entry 11) is read from
   the dissipation variable's diagonal (33) instead.
   */
  lemma PastEndMisalignsM()
    ensures MoveStor(PastEndExample(), 0, 2, 0).x == MoveStor(PastEndExample(), 0, 1, 0).x == [2, 1]
    ensures MoveStor(PastEndExample(), 0, 1, 0).M.entries[1][1] == 11
    ensures MoveStor(PastEndExample(), 0, 2, 0).M.entries[1][1] == 33
  {
    var c := PastEndExample();
    assert Origin(2, 0, 2, 0) == 1 && Origin(2, 0, 2, 1) == 0;
    assert Origin(3, 0, 1, 1) == 0 && Origin(3, 0, 2, 1) == 2;
  }

  /** Two dissipation variables and one port: `M` has the dissipation block `[0, 2)` and the port block `[2, 3)`. */
  function PastEndDissExample(): (c: Core<int>)
    ensures c.Valid() && |c.x| == 0 && |c.w| == 2 && |c.y| == 1
  {
    Core([], None, [1, 2], [3, 4], [5], [6], [], [],
         Matrix(3, 3, [[11, 12, 13], [21, 22, 23], [31, 32, 33]]), Matrix(0, 0, []),
         Dims(0, 0, 0, 0, 0, 0))
  }

  /**
   The as-written move of dissipation variable 0 to index `dims.w() == 2`
   swaps `w` and `z` as the corrected move to index 1 does, but sends row and
   column 0 of `M` into the port block.
   */
  lemma PastEndMisalignsMDiss()
    ensures MoveDiss(PastEndDissExample(), 0, 2, 0).w == MoveDiss(PastEndDissExample(), 0, 1, 0).w == [2, 1]
    ensures MoveDiss(PastEndDissExample(), 0, 1, 0).M.entries[1][1] == 11
    ensures MoveDiss(PastEndDissExample(), 0, 2, 0).M.entries[1][1] == 33
  {
    var c := PastEndDissExample();
    assert Origin(2, 0, 2, 0) == 1 && Origin(2, 0, 2, 1) == 0;
    assert Origin(3, 0, 1, 1) == 0 && Origin(3, 0, 2, 1) == 2;
  }
}

=== FILE: tools.dfy ===
/**
 The list helpers of the `misc/tools.py` module: `myrange`, which builds the
 index permutation every move of a core uses, `splitlist` and `decimate`.
 */
module Tools {

  import opened Options
  import opened Permutations

  function Min(a: int, b: int): int { if a <= b then a else b }

  function Max(a: int, b: int): int { if a <= b then b else a }

  /** Python's `range(lo, hi)` for `lo <= hi`. */
  function Range(lo: nat, hi: nat): (r: seq<nat>)
    requires lo <= hi
    ensures |r| == hi - lo
    ensures forall k :: 0 <= k < |r| ==> r[k] == lo + k
  {
    seq(hi - lo, k requires 0 <= k < hi - lo => lo + k)
  }

  /** Python's slice `s[lo:hi]` for non-negative bounds: both ends clamp to `|s|`, an empty slice when `hi <= lo`. */
  function Slice<T>(s: seq<T>, lo: nat, hi: nat): seq<T> {
    var a := Min(lo, |s|);
    var b := Min(hi, |s|);
    if a <= b then s[a..b] else []
  }

  // ---------------------------------------------------------------------------
  // myrange
  // ---------------------------------------------------------------------------

  /** `myrange(n, indi, indf)` can be built: it reads `lis[indi]` unless `indi == indf`. */
  predicate Movable(n: nat, indi: nat, indf: nat) {
    indi == indf || indi < n
  }

  /** True when `a` lies between offset `o` plus the smaller and `o` plus the larger of two indices. */
  predicate InWindow(o: nat, indi: nat, indf: nat, a: nat) {
    o + Min(indi, indf) <= a <= o + Max(indi, indf)
  }

  /**
   The position at which `myrange(n, indi, indf)` puts `indi`: `indf` itself,
   except that a forward move past the end stops at the last position.
   */
  function Landing(n: nat, indi: nat, indf: nat): nat {
    if indi < indf && n <= indf && 0 < n then n - 1 else indf
  }

  /**
   Reference definition of `myrange`, position by position: the original
   index found at position `k` once `indi` has been moved to `Landing`.
   */
  function Origin(n: nat, indi: nat, indf: nat, k: nat): (v: nat)
    ensures Movable(n, indi, indf) && k < n ==> v < n
  {
    var t := Landing(n, indi, indf);
    if indi < indf then
      if k < indi then k else if k < t then k + 1 else if k == t then indi else k
    else if indi > indf then
      if k < indf then k else if k == indf then indi else if k <= indi then k - 1 else k
    else k
  }

  /** Inverse of `Origin`: the position at which original index `v` ends up. */
  function Destination(n: nat, indi: nat, indf: nat, v: nat): (k: nat)
    ensures Movable(n, indi, indf) && v < n ==> k < n
  {
    var t := Landing(n, indi, indf);
    if indi < indf then
      if v < indi then v else if v == indi then t else if v <= t then v - 1 else v
    else if indi > indf then
      if v < indf then v else if v < indi then v + 1 else if v == indi then indf else v
    else v
  }

  /**
   The permutation `myrange(n, indi, indf)` computes, written position by
   position; `MyRange` below builds it with the source's slices and proves
   the two equal for every input.
   */
  function MoveIndices(n: nat, indi: nat, indf: nat): (p: seq<nat>)
    requires Movable(n, indi, indf)
    ensures |p| == n
    ensures forall k :: 0 <= k < n ==> p[k] == Origin(n, indi, indf, k) < n
  {
    seq(n, k requires 0 <= k < n => Origin(n, indi, indf, k))
  }

  /**
   `myrange(N, indi, indf)`: `range(N)` with index `indi` moved to position
   `indf`, built from Python slices exactly as the source does. Only a move
   with `indi == indf` leaves `range(N)` alone without reading `lis[indi]`,
   which raises `IndexError` when `indi >= N`.
   */
  function MyRange(n: nat, indi: nat, indf: nat): (r: seq<nat>)
    requires Movable(n, indi, indf)
    ensures |r| == n
    ensures forall k :: 0 <= k < n ==> r[k] == Origin(n, indi, indf, k)
  {
    var lis := Range(0, n);
    if indi < indf then
      var deb := Slice(lis, 0, indi) + Slice(lis, indi + 1, indf + 1);
      var end := Slice(lis, indf + 1, n);
      var eli := [lis[indi]];
      deb + eli + end
    else if indi > indf then
      var deb := Slice(lis, 0, indf);
      var end := Slice(lis, indf, indi) + Slice(lis, indi + 1, n);
      var eli := [lis[indi]];
      deb + eli + end
    else
      lis
  }

  /** The slice construction and the position-by-position one agree. */
  lemma MyRangeIsMoveIndices(n: nat, indi: nat, indf: nat)
    requires Movable(n, indi, indf)
    ensures MyRange(n, indi, indf) == MoveIndices(n, indi, indf)
  {
    var r, p := MyRange(n, indi, indf), MoveIndices(n, indi, indf);
    assert forall k :: 0 <= k < n ==> r[k] == p[k];
  }

  /** `myrange` returns a permutation of `0..N-1`, and `Destination` inverts it. */
  lemma MyRangeIsPerm(n: nat, indi: nat, indf: nat)
    requires Movable(n, indi, indf)
    ensures IsPerm(MyRange(n, indi, indf), n)
    ensures forall v :: 0 <= v < n ==>
      Destination(n, indi, indf, v) < n && MyRange(n, indi, indf)[Destination(n, indi, indf, v)] == v
  {
    var r := MyRange(n, indi, indf);
    forall v | 0 <= v < n
      ensures Destination(n, indi, indf, v) < n && r[Destination(n, indi, indf, v)] == v
    {
    }
    forall v | 0 <= v < n
      ensures v in r
    {
      assert r[Destination(n, indi, indf, v)] == v;
    }
  }

  /** Position `indf` (or the last position, for a move past the end) holds `indi`. */
  lemma MyRangePlacesIndi(n: nat, indi: nat, indf: nat)
    requires indi < n
    ensures Landing(n, indi, indf) < n
    ensures MyRange(n, indi, indf)[Landing(n, indi, indf)] == indi
  {
  }

  /** Moving an index onto itself yields `range(N)`, whatever `N` is. */
  lemma MyRangeIdentity(n: nat, i: nat)
    ensures MyRange(n, i, i) == Range(0, n)
  {
  }

  /**
   A forward move `indi < indf < N`: entries before `indi` and after `indf`
   stay, `indi+1..indf` shift one place left, `indi` lands at `indf`.
   */
  lemma MyRangeForward(n: nat, indi: nat, indf: nat)
    requires indi < indf < n
    ensures forall k :: 0 <= k < indi ==> MyRange(n, indi, indf)[k] == k
    ensures forall k :: indi <= k < indf ==> MyRange(n, indi, indf)[k] == k + 1
    ensures MyRange(n, indi, indf)[indf] == indi
    ensures forall k :: indf < k < n ==> MyRange(n, indi, indf)[k] == k
  {
  }

  /**
   A backward move `indf < indi < N`: entries before `indf` and after `indi`
   stay, `indf..indi-1` shift one place right, `indi` lands at `indf`.
   */
  lemma MyRangeBackward(n: nat, indi: nat, indf: nat)
    requires indf < indi < n
    ensures forall k :: 0 <= k < indf ==> MyRange(n, indi, indf)[k] == k
    ensures MyRange(n, indi, indf)[indf] == indi
    ensures forall k :: indf < k <= indi ==> MyRange(n, indi, indf)[k] == k - 1
    ensures forall k :: indi < k < n ==> MyRange(n, indi, indf)[k] == k
  {
  }

  /** Outside the window between `indi` and its landing position nothing moves. */
  lemma OriginOutsideWindow(n: nat, indi: nat, indf: nat, k: nat)
    requires Movable(n, indi, indf)
    requires !InWindow(0, indi, Landing(n, indi, indf), k)
    ensures Origin(n, indi, indf, k) == k
  {
  }

  /** Position by position, a move past the end is a move to the last position. */
  lemma OriginPastEnd(n: nat, indi: nat, k: nat)
    requires indi < n
    ensures Origin(n, indi, n, k) == Origin(n, indi, n - 1, k)
  {
  }

  /**
   Moving past the end, `myrange(N, indi, N)`, is the same permutation as
   moving to the last position, `myrange(N, indi, N-1)`: the slices clamp.
   */
  lemma MyRangePastEnd(n: nat, indi: nat)
    requires indi < n
    ensures MyRange(n, indi, n) == MyRange(n, indi, n - 1)
  {
  }

  /**
   A move inside the block `[o, o+m)` of a range of length `n` acts on the
   block as `myrange(m, indi, indf)` does and leaves the rest alone, provided
   both indices lie inside the block.
   */
  lemma OriginInBlock(n: nat, o: nat, m: nat, indi: nat, indf: nat, k: nat)
    requires o + m <= n && indi < m && indf < m && k < n
    ensures Origin(n, o + indi, o + indf, k) == Lift(o, MoveIndices(m, indi, indf), k)
  {
  }

  /**
   Reordering by `myrange(|s|, i, |s|-1)` (in its position-by-position form) takes out the element at `i` and
   appends it at the end, keeping the order of the others.
   */
  lemma MoveToEnd<T>(s: seq<T>, i: nat)
    requires i < |s|
    ensures InBounds(MoveIndices(|s|, i, |s| - 1), |s|)
    ensures Reorder(s, MoveIndices(|s|, i, |s| - 1)) == s[..i] + s[i + 1..] + [s[i]]
  {
    var p := MoveIndices(|s|, i, |s| - 1);
    var r := Reorder(s, p);
    var e := s[..i] + s[i + 1..] + [s[i]];
    assert |r| == |e|;
    forall k | 0 <= k < |r|
      ensures r[k] == e[k]
    {
      if k < i {
      } else if k < |s| - 1 {
      } else {
      }
    }
  }

  // ---------------------------------------------------------------------------
  // splitlist
  // ---------------------------------------------------------------------------

  /** Concatenation of a list of lists, in order. */
  function Flatten<T>(chunks: seq<seq<T>>): seq<T> {
    if |chunks| == 0 then [] else Flatten(chunks[..|chunks| - 1]) + chunks[|chunks| - 1]
  }

  /**
   `splitlist(lis, len_out)`: cut `lis` into consecutive chunks of `len_out`
   elements, the last one possibly shorter. The source reverses `lis` and pops
   from its end, which reads `lis` front to back; here `pos` counts the pops.
   An inner `pop` on an exhausted list raises `IndexError`, which the source
   swallows, so the inner loop always runs `len_out` times. With `len_out < 1`
   the outer `while lis` loop never ends on a non-empty list, hence the
   precondition.
   */
  method SplitList<T>(lis: seq<T>, lenOut: int) returns (chunks: seq<seq<T>>)
    requires lenOut >= 1 || lis == []
    ensures Flatten(chunks) == lis
    ensures forall k :: 0 <= k < |chunks| ==> 1 <= |chunks[k]| <= lenOut
    ensures forall k :: 0 <= k < |chunks| - 1 ==> |chunks[k]| == lenOut
  {
    chunks := [];
    var pos := 0;
    while pos < |lis|
      invariant 0 <= pos <= |lis|
      invariant Flatten(chunks) == lis[..pos]
      invariant forall k :: 0 <= k < |chunks| ==> 1 <= |chunks[k]| <= lenOut
      invariant forall k :: 0 <= k < |chunks| - 1 ==> |chunks[k]| == lenOut
      invariant |chunks| > 0 && |chunks[|chunks| - 1]| < lenOut ==> pos == |lis|
      decreases |lis| - pos
    {
      var temp: seq<T> := [];
      var start := pos;
      for j := 0 to lenOut
        invariant start <= pos <= |lis|
        invariant temp == lis[start..pos]
        invariant |temp| == j || pos == |lis|
        invariant |temp| <= j
      {
        if pos < |lis| {
          temp := temp + [lis[pos]];
          pos := pos + 1;
        }
      }
      assert lis[..pos] == lis[..start] + temp;
      chunks := chunks + [temp];
    }
    assert lis[..pos] == lis;
  }

  // ---------------------------------------------------------------------------
  // decimate
  // ---------------------------------------------------------------------------

  lemma MulMono(a: int, b: int, c: nat)
    requires a <= b
    ensures a * c <= b * c
  {
    assert b * c - a * c == (b - a) * c;
  }

  /** Within `(m*nd - nd, m*nd]`, the only multiple of `nd` is `m*nd`. */
  lemma MultipleInWindow(n: nat, m: nat, nd: nat)
    requires nd > 0 && m * nd - nd < n <= m * nd
    ensures n % nd == 0 <==> n == m * nd
  {
    var q := n / nd;
    var rem := n % nd;
    assert n == q * nd + rem && 0 <= rem < nd;
    if q >= m + 1 {
      MulMono(m + 1, q, nd);
      assert false;
    }
    if q + 1 <= m - 1 {
      MulMono(q + 1, m - 1, nd);
      assert false;
    }
    assert q == m || q == m - 1;
    if q == m - 1 {
      assert q * nd == m * nd - nd;
    }
  }

  /**
   `decimate(it, nd)`: the first element, then every `nd`-th one, in order.
   The source's `assert` rejects an `nd` that is not a positive integer; that
   rejection is `None` here.
   */
  method Decimate<T>(it: seq<T>, nd: int := 10) returns (r: Option<seq<T>>)
    ensures r.None? <==> nd <= 0
    ensures r.Some? ==> (|r.value| - 1) * nd < |it| <= |r.value| * nd
    ensures r.Some? ==> forall j :: 0 <= j < |r.value| ==> j * nd < |it| && r.value[j] == it[j * nd]
    ensures r.Some? && |it| > 0 ==> |r.value| > 0 && r.value[0] == it[0]
  {
    if !(nd > 0) {
      return None;
    }
    var l: seq<T> := [];
    var n := 0;
    while n < |it|
      invariant 0 <= n <= |it|
      invariant |l| * nd - nd < n <= |l| * nd
      invariant forall j :: 0 <= j < |l| ==> j * nd < n && l[j] == it[j * nd]
    {
      MultipleInWindow(n, |l|, nd);
      if n % nd == 0 {
        l := l + [it[n]];
      }
      n := n + 1;
    }
    if |it| > 0 {
      assert 0 * nd < |it|;
    }
    return Some(l);
  }
}
